=== FILE: README.md ===
# Neworld check-in script: string core

A Dafny model of the string logic in `help.py` from a daily check-in automation script. That logic
decides what the script records and whether it runs at all:

- **Email masking** (`mask_email`). This is the redacted account name the script logs, records and
  sends. `Masking.MaskEmail` strips the address and hands it to `Masking.MaskAddress`, which follows
  the rest of the code: it splits the stripped text at the first `@`, masks the local part, and
  builds the domain mask by splitting on `.` and joining again.
  `Masking.DomainMask` describes the same domain mask directly, and a lemma proves the two equal.
  An empty local part is the `IndexError` of `name[0]`, modelled as `Err(EmptyLocalPart)`.
  The mask does not always contain exactly one `@`. `ab@@x.com` masks to `a***@@***.com`.
  `Masking.AtCount` gives the exact count. `Masking.SingleAtStaysSingle` proves that an address
  with one `@` gets a mask with one `@`.
- **The clock renderings** (`ts_cn_str`, `today_cn_str`). These are `strftime` over a clock
  reading that is passed in as a `Clock.DateTime` value. The model proves that the day's date
  string is the first ten characters of the stamp that opens every record. It also proves that
  two readings give the same date string exactly when they fall on the same day.
- **The marker file** (`signed_file`, `append_signed`, `FINAL_STATUSES`, `has_done_today`).
  `Marker.MarkerStore` holds the files on disk as a map from path to text.
  - `AppendSigned` appends the record line, built from two f-strings, to the slot's file.
  - `HasDoneToday` reads the file back line by line. Its loop, `AnyDoneLine`, returns early on
    the first line that starts with today's date and names a final status.
  - Reading back follows Python's text mode: `\n`, `\r` and `\r\n` each end a line, and each is
    read as `\n`.
  - The lemmas cover write-then-query, prior lines being unchanged, `FAILED` records and records
    from other days. They also cover the substring quirk: a slot or email that contains a final
    status name makes even a `FAILED` record count.
- **Page scraping** (`extract_remaining_and_expire`). The body text is passed in. The two regular
  expressions are written out by hand. `re.search` is the leftmost match, and `re.findall` is the
  matches from left to right, none overlapping. The model includes `str.splitlines()` and Python's
  `max` over strings. `Scrape.ExtractRemainingAndExpire` is the loop with its early `break`. It is
  proved against `RemainingOf` and `ExpireOf`, and the lemmas say what those mean in terms of the
  patterns.

Modules: `Wrappers` (Option, Result), `Text` (the Python `str` operations used), `Clock`,
`Masking`, `Marker`, `Scrape`.

## Model

| member | source | states |
|---|---|---|
| Text.Strip | help.py:65 | the result is the input with leading and trailing white space (Python `isspace`) removed: it occurs in the input between all-space ends and neither starts nor ends with white space |
| Text.StripStripped | help.py:65 | stripping twice is stripping once |
| Text.ContainsIff | help.py:109 | the substring scan used for `s in line` answers true exactly when the word occurs at some index |
| Text.SplitTail | help.py:74 | `c.join(s.split(c)[1:])` is the text after the first `c`, or empty when there is none |
| Text.JoinSplit | help.py:73-74 | joining the pieces of `split(c)` with `c` gives back the text |
| Text.LexLeTotal | help.py:159 | Python's string order is total |
| Text.LexLeTransitive | help.py:159 | Python's string order is transitive |
| Clock.PadDigitsInjective | help.py:40-44 | zero-padded fields of numbers below 10^width render differently for different numbers |
| Clock.StrftimeConcat | help.py:40-44 | a format not ending in `%` renders independently of what follows it |
| Clock.TodayCnStr | help.py:43-44 | `today_cn_str` is the year in four digits, `-`, the month in two, `-`, the day in two |
| Clock.TsCnStr | help.py:40-41 | `ts_cn_str` is the date string of the same reading, a space, and the hour, minute and second in two digits each separated by `:`; it has the 19-character shape `dddd-dd-dd dd:dd:dd` the page scraper searches for |
| Clock.TimeRendering | help.py:40-41 | the part of the timestamp format after the date renders a space and the hour, minute and second in two digits each, separated by `:` |
| Clock.TodayPrefixesTimestamp | help.py:40-44 | the date string has 10 characters and the stamp of the same reading starts with it |
| Clock.SameDateIffSameDay | help.py:43-44 | two readings render the same date string exactly when their year, month and day agree |
| Masking.MaskEmail | help.py:64-65 | the mask is exactly `***` when the address holds no `@`; it is an error exactly when the first character that is not white space is `@`; `Masking.MaskAddress` and the lemmas below state the rest of the shape |
| Masking.StripAt | help.py:65 | stripping keeps every `@`, and the stripped text starts with `@` exactly when the first character that is not white space is `@` |
| Masking.MaskAddress | help.py:66-75 | the mask is exactly `***` when there is no `@`; it is an error exactly when the text starts with `@` (empty local part) |
| Masking.MaskDomainDirect | help.py:73-75 | the split-and-join domain mask equals the direct description: first character of the first label (if non-empty), `***.`, then everything after the domain's first `.` |
| Masking.MaskAddressShape | help.py:68-75 | with an `@` and a non-empty local part the mask is the local mask, `@`, and the direct domain mask of the text after the first `@` |
| Masking.MaskedLocalPart | help.py:68-72 | the mask starts with the first character and `***@` when the local part has at most two characters, and with its first two, `***`, its last two and `@` otherwise |
| Masking.MaskedDomain | help.py:73-75 | everything after the mask's first `@` is the direct domain mask of the text after the input's first `@` |
| Masking.AtCount | help.py:68-75 | the number of `@` in the mask: one, plus one when the first domain label is non-empty and starts with `@`, plus those after the domain's first `.` |
| Masking.SingleAtStaysSingle | help.py:68-75 | an address with exactly one `@` masks to a text with exactly one `@` |
| Masking.MaskStripped | help.py:65 | masking an already stripped address gives the same result |
| Marker.SignedFile | help.py:97-98 | the marker file name is `SIGNED_`, the slot, then `.txt`, eleven characters longer than the slot; `Marker.SignedFileInjective` says no two slots share one |
| Marker.SignedFileInjective | help.py:97-98 | different slots have different marker files |
| Marker.MarkerStore.HasDoneToday | help.py:102-111 | true exactly when the slot's file exists and one of its lines, read in text mode, starts with the date string of `now` and contains one of the final status names |
| Marker.AnyDoneLine | help.py:107-111 | the loop over the lines answers true exactly when some line starts with the date string and contains one of the final status names, and false when none does |
| Marker.MarkerStore.AppendSigned | help.py:124-137 | only the slot's file changes, and it becomes its old text (empty if missing) plus the record line stamped with `now`; when the old text is empty or ends in a line end, it still ends in one and its earlier lines read back unchanged; when in addition the status is final and neither slot nor email holds a line end, the same-day query then finds it |
| Marker.RecordLine | help.py:131-134 | the record line starts with the stamp and ends in a line end, so the file stays well-terminated; `Marker.RecordIsOneLine` and `Marker.RecordFirstLineDone` say how it reads back |
| Marker.NoConfigRecord | help.py:124-134 | a slot without credentials is recorded with status `CHECK_NO_CONFIG` and every optional field `-` |
| Marker.FileLines | help.py:107-108 | reading a file gives no lines exactly when it is empty; every line is non-empty and holds a line end only as its last character, which is `\n` on every line but possibly the last, and on every line when the file ends in `\n`; `Marker.FileLinesCharacterized` states exactly which lines; `Marker.LinesConcat` and `Marker.SingleLine` say how appends read back |
| Marker.FileLinesRoundTrip | help.py:107-108 | the lines read back spell out the file: each is a run of text without line ends followed by its line end, read as `\n`, or the non-empty unterminated rest |
| Marker.ReadsAsIsFileLines | help.py:107-108 | any list of lines that spells out the file that way is the one reading it gives |
| Marker.FileLinesCharacterized | help.py:107-108 | a list is what reading the file gives exactly when it spells out the file that way |
| Marker.LinesConcat | help.py:136-137 | appending to a file that ends in a line end leaves its lines as they were and adds the lines of the appended text |
| Marker.SingleLine | help.py:133 | a text whose only line end is its last character reads back as exactly one line |
| Marker.LineInText | help.py:107-109 | a status name found in a line read from a file occurs in the file's text |
| Marker.RecordIsOneLine | help.py:131-134 | with fields free of line ends, the record reads back as exactly the one line written |
| Marker.RecordFirstLineDone | help.py:131-133 | when neither slot nor email holds a line end, the first line of a record starts with the date of its stamp and names its status, slot and email, so it counts that day when any of them is or contains a final status name |
| Marker.DoneAfterAppend | help.py:102-111 | write then query: after a record is appended to a file that is empty or ends in a line end, and when neither slot nor email holds a line end, the query on the same day answers true if the status is final or the slot or email contains a final status name |
| Marker.RecordNoMention | help.py:131-133 | a `FAILED` record whose fields contain no final status name contains none, since the separators hold no capital letter or underscore |
| Marker.AppendPlainNotDone | help.py:107-110 | appending text that names no final status leaves a negative answer negative |
| Marker.FailedRecordNotDone | help.py:109 | a `FAILED` record whose fields name no final status does not make the query true, on any day |
| Marker.OtherDayNotDone | help.py:106-109 | a record stamped on another day, with one-line fields, does not make the query true whatever its status |
| Scrape.SplitLines | help.py:149 | no line holds a line boundary; `Scrape.SplitLinesCharacterized` states exactly which lines |
| Scrape.SplitLinesRoundTrip | help.py:149 | the text is the lines joined with the ends they were split at: each end one boundary character or `\r\n` as one, only the last end possibly missing, and then the last line not empty |
| Scrape.LinesOfUnique | help.py:149 | a text splits that way into one list of lines only |
| Scrape.SplitLinesCharacterized | help.py:149 | a list is what `splitlines()` returns exactly when it splits the text that way |
| Scrape.LineOccurs | help.py:149 | every line is a piece of the text it was split from |
| Scrape.SearchStamp | help.py:151 | the result is the leftmost position from `p` where the timestamp pattern matches, or none when it matches nowhere from `p` |
| Scrape.FindStamps | help.py:157 | every listed item is the text of a timestamp match in the body; the list is empty exactly when the pattern matches nowhere; `Scrape.FindStampsCover` says nothing is skipped and `Scrape.FindStampsCharacterized` states exactly which matches are listed |
| Scrape.FindStampsCover | help.py:157 | every timestamp match from `p` on starts inside a listed match: itself or one overlapping it from the left |
| Scrape.FindStampsPositions | help.py:157 | the list holds the texts of the matches found by scanning on from the end of the previous one |
| Scrape.PositionsCover | help.py:157 | those positions are matches in increasing order, none overlapping the next, and every match is inside one of them |
| Scrape.MatchCoverUnique | help.py:157 | only one list of positions has those three properties |
| Scrape.FindStampsCharacterized | help.py:157 | for any positions with those properties, the list holds exactly the matches at them, in order |
| Scrape.FindallSkipsOverlap | help.py:156-159 | in the body `2024-01-01 00:00:59` + `99-12-31 23:59:59`, the match at 17 overlaps the one at 0 and is not listed, although it is the greater timestamp; the general law is `Scrape.FindStampsCharacterized` |
| Scrape.MaxString | help.py:159 | the result is one of the items and no item is greater in Python's string order |
| Scrape.MaxStringUnique | help.py:159 | an item that no item exceeds is the result, since no two different strings tie |
| Scrape.QuotaAtSound | help.py:145 | what the greedy matcher captures at `p` is group 1 of a match of the quota pattern at `p` |
| Scrape.QuotaAtComplete | help.py:145 | every match of the quota pattern at `p` is the one the greedy matcher finds, with the same group 1 |
| Scrape.SearchQuota | help.py:145 | a group found has the quota shape: at least three characters, a digit or `.` first, `GB`, `MB` or `TB` last; `Scrape.SearchQuotaAtPos` says which match it is |
| Scrape.SearchQuotaAtPos | help.py:145 | `re.search` gives the capture at the leftmost position where the greedy matcher captures, or nothing when no position does |
| Scrape.SearchQuotaNone | help.py:145 | the search finds nothing exactly when no position from `p` on captures |
| Scrape.SearchQuotaLeftmost | help.py:145 | the search result is the capture at the leftmost capturing position |
| Scrape.RemainingOf | help.py:143-147 | `remaining` is `-` or a text of the quota shape; `Scrape.RemainingMeaning` says which |
| Scrape.RemainingMeaning | help.py:145-147 | `remaining` is `-` exactly when the quota pattern matches nowhere; otherwise it is group 1 of a match at the leftmost matching position |
| Scrape.ExtractRemainingAndExpire | help.py:140-161 | the loop method returns the `remaining` and `expire` that the specification functions define |
| Scrape.LineStampInBody | help.py:149-153 | a timestamp found on one line is a timestamp match of the body |
| Scrape.ExpireOf | help.py:144-159 | `expire` is `-` or a 19-character timestamp `dddd-dd-dd dd:dd:dd`; `Scrape.ExpireMeaning`, `Scrape.ExpireFromDueLine` and `Scrape.ExpireFallback` say which |
| Scrape.ExpireMeaning | help.py:149-159 | `expire` is `-` exactly when the body holds no timestamp; otherwise it is the text of a timestamp match in the body |
| Scrape.ExpireFromDueLine | help.py:149-154 | the first line that contains `到期` and a timestamp decides `expire`: its first timestamp |
| Scrape.ExpireFallback | help.py:156-159 | without such a line, `expire` is one of the timestamps `re.findall` lists, and none of them is greater |
| Scrape.ExpireFallbackCovers | help.py:156-159 | without such a line, every timestamp match of the body, listed or not, lies inside a listed match that is no greater than `expire` |

## Left out

- Browser automation is not modelled: the Selenium driver, page navigation, clicks, waits, screenshots and `main`. `extract_remaining_and_expire` takes the body text the driver would read.
- Telegram sending, the message templates and logging are not modelled. They are network and file I/O that make no decisions.
- Reading the clock (`now_cn`) and the UTC+8 time zone are not modelled. The reading is a `Clock.DateTime` parameter.
- `strftime` renders every field as its last digits, zero-padded to the directive's width, for any `Clock.DateTime`. For years 1000–9999 this is what Python prints; `%Y` of a smaller year depends on the platform. Only `Clock.SameDateIffSameDay` and `Marker.OtherDayNotDone`, which tell different days apart, assume `Clock.Valid` (years 1000–9999 and in-range fields); day-of-month validity per month is not checked. Only the six `strftime` directives the script uses are interpreted.
- Floating point is not modelled:
  - `used` is taken as the already rendered `f"{used:.2f}"` text, or none.
  - `parse_remaining_gb` and `extract_last_used_from_history` are not part of this model.
- `extract_traffic_history` is not part of this model. It runs a regular expression over raw page HTML fetched through the driver.
- Scrape.SearchStamp: `\d` is modelled as the ASCII digits `0`–`9`. Python's `\d` in a `str` pattern also matches other Unicode decimal digits. The same applies to `Scrape.FindStamps` and to `Clock.IsTimestamp`, which they use.
- Only the two fixed patterns are modelled, not Python's general regular-expression engine.
- Masking.MaskEmail takes a string. `mask_email(None)` is the same as `mask_email("")`, whose result `***` the `MaskAddress` contract already states.
- Marker.MarkerStore.AppendSigned takes the status as one of the four names the script passes: `SUCCESS`, `ALREADY_DONE`, `CHECK_NO_CONFIG` and `FAILED`. Arbitrary status strings are not modelled.
- The marker files are a map from path to text, not a real file system. Not modelled:
  - I/O and decoding errors
  - concurrent writers
  - the translation of `\n` into the platform's line separator on write, which reads back as `\n` in either case
- The `IndexError` of an empty local part is returned as `Err(EmptyLocalPart)`. It is not raised through the caller.

=== FILE: clock.dfy ===
/**
 * The script's two clock renderings, `ts_cn_str` and `today_cn_str`: `strftime` of one reading
 * of the UTC+8 clock. The reading is a value passed in; reading the clock is not modelled.
 */
module Clock {
  import opened Text

  /** A reading of the UTC+8 wall clock, as the fields of a Python `datetime`. */
  datatype DateTime = DateTime(year: nat, month: nat, day: nat, hour: nat, minute: nat, second: nat)

  /** The readings rendered here: four-digit years and in-range fields. */
  predicate Valid(t: DateTime) {
    1000 <= t.year <= 9999 && 1 <= t.month <= 12 && 1 <= t.day <= 31
    && t.hour < 24 && t.minute < 60 && t.second < 60
  }

  predicate SameDay(t: DateTime, u: DateTime) {
    t.year == u.year && t.month == u.month && t.day == u.day
  }

  predicate IsDigit(c: char) {
    '0' <= c <= '9'
  }

  function Pow10(n: nat): nat {
    if n == 0 then 1 else 10 * Pow10(n - 1)
  }

  function Digit(n: nat): (c: char)
    requires n < 10
    ensures IsDigit(c)
  {
    ('0' as int + n) as char
  }

  /** The last `width` decimal digits of `n`, zero-padded (`%04d`, `%02d`). */
  function PadDigits(n: nat, width: nat): (s: string)
    ensures |s| == width
    ensures forall i :: 0 <= i < width ==> IsDigit(s[i])
  {
    if width == 0 then "" else PadDigits(n / 10, width - 1) + [Digit(n % 10)]
  }

  /** Zero-padded rendering loses nothing for numbers that fit the width. */
  lemma {:induction false} PadDigitsInjective(a: nat, b: nat, width: nat)
    requires a < Pow10(width) && b < Pow10(width)
    requires PadDigits(a, width) == PadDigits(b, width)
    ensures a == b
  {
    if width > 0 {
      var pa, pb := PadDigits(a / 10, width - 1), PadDigits(b / 10, width - 1);
      assert PadDigits(a, width)[..width - 1] == pa && PadDigits(b, width)[..width - 1] == pb;
      assert PadDigits(a, width)[width - 1] == Digit(a % 10);
      assert PadDigits(b, width)[width - 1] == Digit(b % 10);
      PadDigitsInjective(a / 10, b / 10, width - 1);
    }
  }

  /** The `strftime` directives the script uses, and what each renders. */
  predicate IsDirective(c: char) {
    c == 'Y' || c == 'm' || c == 'd' || c == 'H' || c == 'M' || c == 'S'
  }

  function Directive(t: DateTime, c: char): string
    requires IsDirective(c)
  {
    match c
    case 'Y' => PadDigits(t.year, 4)
    case 'm' => PadDigits(t.month, 2)
    case 'd' => PadDigits(t.day, 2)
    case 'H' => PadDigits(t.hour, 2)
    case 'M' => PadDigits(t.minute, 2)
    case 'S' => PadDigits(t.second, 2)
  }

  /** `t.strftime(fmt)` for formats built from the six directives above and literal characters. */
  function Strftime(t: DateTime, fmt: string): string
    decreases |fmt|
  {
    if fmt == [] then ""
    else if fmt[0] == '%' && |fmt| >= 2 && IsDirective(fmt[1]) then Directive(t, fmt[1]) + Strftime(t, fmt[2..])
    else [fmt[0]] + Strftime(t, fmt[1..])
  }

  const TimestampFormat := "%Y-%m-%d %H:%M:%S"
  const DateFormat := "%Y-%m-%d"

  /**
   * `ts_cn_str()`: the stamp that opens every marker record. It is the date string of the same
   * reading, a space and the time of day, and it has the shape the page scraper searches for.
   */
  function TsCnStr(t: DateTime): (r: string)
    ensures r == TodayCnStr(t) + " " + PadDigits(t.hour, 2) + ":" + PadDigits(t.minute, 2)
                 + ":" + PadDigits(t.second, 2)
    ensures IsTimestamp(r)
  {
    StampSplit(t);
    DateRendering(t);
    TimeRendering(t);
    var h, m, sec := PadDigits(t.hour, 2), PadDigits(t.minute, 2), PadDigits(t.second, 2);
    AppendTime(Strftime(t, DateFormat), Strftime(t, " %H:%M:%S"), h, m, sec);
    FieldsShape(PadDigits(t.year, 4), PadDigits(t.month, 2), PadDigits(t.day, 2), h, m, sec);
    Strftime(t, TimestampFormat)
  }

  /**
   * `today_cn_str()`: the prefix a record must have to count for today. It is the year in four
   * digits, `-`, the month in two, `-`, the day in two.
   */
  function TodayCnStr(t: DateTime): (r: string)
    ensures r == PadDigits(t.year, 4) + "-" + PadDigits(t.month, 2) + "-" + PadDigits(t.day, 2)
  {
    DateRendering(t);
    Strftime(t, DateFormat)
  }

  /** A format not ending in `%` renders independently of what follows it. */
  lemma {:induction false} StrftimeConcat(t: DateTime, f: string, g: string)
    requires f == [] || f[|f| - 1] != '%'
    ensures Strftime(t, f + g) == Strftime(t, f) + Strftime(t, g)
    decreases |f|
  {
    if f == [] {
      assert f + g == g;
    } else if f[0] == '%' && |f| >= 2 && IsDirective(f[1]) {
      StrftimeDirectiveStep(t, f, g);
      StrftimeConcat(t, f[2..], g);
      Regroup(Directive(t, f[1]), Strftime(t, f[2..]), Strftime(t, g));
    } else {
      StrftimeLiteralStep(t, f, g);
      StrftimeConcat(t, f[1..], g);
      Regroup([f[0]], Strftime(t, f[1..]), Strftime(t, g));
    }
  }

  /**
   * Associativity of concatenation, stated over plain variables so that the solver need not
   * regroup terms that hold function applications.
   */
  lemma Regroup(x: string, a: string, b: string)
    ensures x + (a + b) == x + a + b
  {
  }

  lemma StrftimeDirectiveStep(t: DateTime, f: string, g: string)
    requires |f| >= 2 && f[0] == '%' && IsDirective(f[1])
    ensures Strftime(t, f) == Directive(t, f[1]) + Strftime(t, f[2..])
    ensures Strftime(t, f + g) == Directive(t, f[1]) + Strftime(t, f[2..] + g)
  {
    var s := f + g;
    assert s[0] == '%' && s[1] == f[1];
    assert s[2..] == f[2..] + g;
  }

  lemma StrftimeLiteralStep(t: DateTime, f: string, g: string)
    requires f != [] && f[|f| - 1] != '%' && !(f[0] == '%' && |f| >= 2 && IsDirective(f[1]))
    ensures Strftime(t, f) == [f[0]] + Strftime(t, f[1..])
    ensures Strftime(t, f + g) == [f[0]] + Strftime(t, f[1..] + g)
  {
    var s := f + g;
    assert s[0] == f[0];
    assert |f| >= 2 ==> s[1] == f[1];
    assert s[1..] == f[1..] + g;
  }

  /** The shape `\d{4}-\d{2}-\d{2} \d{2}:\d{2}:\d{2}` at offset `i` of a 19-character stamp. */
  predicate FitsTimestampAt(i: nat, c: char) {
    if i == 4 || i == 7 then c == '-'
    else if i == 10 then c == ' '
    else if i == 13 || i == 16 then c == ':'
    else IsDigit(c)
  }

  predicate IsTimestamp(s: string) {
    |s| == 19 && forall i :: 0 <= i < 19 ==> FitsTimestampAt(i, s[i])
  }

  lemma StrftimeLiteral(t: DateTime, c: char, g: string)
    requires c != '%'
    ensures Strftime(t, [c] + g) == [c] + Strftime(t, g)
  {
    assert ([c] + g)[0] == c && ([c] + g)[1..] == g;
  }

  lemma StrftimeDirective(t: DateTime, c: char, g: string)
    requires IsDirective(c)
    ensures Strftime(t, ['%', c] + g) == Directive(t, c) + Strftime(t, g)
  {
    assert (['%', c] + g)[1] == c && (['%', c] + g)[2..] == g;
  }

  /** The date format renders the zero-padded year, month and day joined by `-`. */
  lemma DateRendering(t: DateTime)
    ensures Strftime(t, DateFormat) == PadDigits(t.year, 4) + "-" + PadDigits(t.month, 2) + "-" + PadDigits(t.day, 2)
  {
    MonthDayRendering(t);
    assert DateFormat == ['%', 'Y'] + "-%m-%d";
    StrftimeDirective(t, 'Y', "-%m-%d");
    FlattenFive(PadDigits(t.year, 4), "-", PadDigits(t.month, 2), "-", PadDigits(t.day, 2));
  }

  lemma MonthDayRendering(t: DateTime)
    ensures Strftime(t, "-%m-%d") == "-" + (PadDigits(t.month, 2) + ("-" + PadDigits(t.day, 2)))
  {
    FieldRendering(t, '-', 'd');
    assert "%m-%d" == ['%', 'm'] + "-%d";
    StrftimeDirective(t, 'm', "-%d");
    StrftimeLiteral(t, '-', "%m-%d");
  }

  /** A separator followed by one directive. */
  lemma FieldRendering(t: DateTime, sep: char, c: char)
    requires sep != '%' && IsDirective(c)
    ensures Strftime(t, [sep, '%', c]) == [sep] + Directive(t, c)
  {
    StrftimeDirective(t, c, "");
    assert ['%', c] + "" == ['%', c];
    StrftimeLiteral(t, sep, ['%', c]);
    assert [sep] + ['%', c] == [sep, '%', c];
  }

  /** The part of the timestamp format after the date renders the time of day. */
  lemma TimeRendering(t: DateTime)
    ensures Strftime(t, " %H:%M:%S") == " " + PadDigits(t.hour, 2) + ":" + PadDigits(t.minute, 2)
                                       + ":" + PadDigits(t.second, 2)
  {
    MinuteSecondRendering(t);
    assert "%H:%M:%S" == ['%', 'H'] + ":%M:%S";
    StrftimeDirective(t, 'H', ":%M:%S");
    StrftimeLiteral(t, ' ', "%H:%M:%S");
    var h, m, sec := PadDigits(t.hour, 2), PadDigits(t.minute, 2), PadDigits(t.second, 2);
    FlattenSix(" ", h, ":", m, ":", sec);
  }

  lemma MinuteSecondRendering(t: DateTime)
    ensures Strftime(t, ":%M:%S") == ":" + (PadDigits(t.minute, 2) + (":" + PadDigits(t.second, 2)))
  {
    FieldRendering(t, ':', 'S');
    assert "%M:%S" == ['%', 'M'] + ":%S";
    StrftimeDirective(t, 'M', ":%S");
    StrftimeLiteral(t, ':', "%M:%S");
  }

  /**
   * Pieces nested to the right are the same pieces nested to the left: associativity, stated over
   * plain variables so that the solver need not regroup terms that hold function applications.
   */
  lemma FlattenFive(a: string, b: string, c: string, d: string, e: string)
    ensures a + (b + (c + (d + e))) == a + b + c + d + e
  {
  }

  /** As `FlattenFive`, for six pieces. */
  lemma FlattenSix(a: string, b: string, c: string, d: string, e: string, f: string)
    ensures a + (b + (c + (d + (e + f)))) == a + b + c + d + e + f
  {
  }

  /** The date string has ten characters and the stamp of the same reading starts with it. */
  lemma TodayPrefixesTimestamp(t: DateTime)
    ensures |TodayCnStr(t)| == 10
    ensures StartsWith(TsCnStr(t), TodayCnStr(t))
  {
    var h, m, sec := PadDigits(t.hour, 2), PadDigits(t.minute, 2), PadDigits(t.second, 2);
    AppendTime(TodayCnStr(t), " " + h + ":" + m + ":" + sec, h, m, sec);
  }

  lemma StampSplit(t: DateTime)
    ensures Strftime(t, TimestampFormat) == Strftime(t, DateFormat) + Strftime(t, " %H:%M:%S")
  {
    FormatSplit();
    StrftimeConcat(t, DateFormat, " %H:%M:%S");
  }

  lemma FormatSplit()
    ensures TimestampFormat == DateFormat + " %H:%M:%S"
  {
  }

  lemma AppendTime(date: string, time: string, h: string, m: string, sec: string)
    requires time == " " + h + ":" + m + ":" + sec
    ensures date + time == date + " " + h + ":" + m + ":" + sec
    ensures StartsWith(date + time, date)
  {
    assert (date + time)[..|date|] == date;
  }

  predicate AllDigits(s: string) {
    forall i :: 0 <= i < |s| ==> IsDigit(s[i])
  }

  /** Digit fields of widths 4, 2, 2, 2, 2, 2 joined by `-`, `-`, ` `, `:`, `:` form a stamp. */
  lemma FieldsShape(y: string, mo: string, d: string, h: string, mi: string, se: string)
    requires |y| == 4 && |mo| == 2 && |d| == 2 && |h| == 2 && |mi| == 2 && |se| == 2
    requires AllDigits(y) && AllDigits(mo) && AllDigits(d) && AllDigits(h) && AllDigits(mi) && AllDigits(se)
    ensures IsTimestamp(y + "-" + mo + "-" + d + " " + h + ":" + mi + ":" + se)
  {
    var s := y + "-" + mo + "-" + d + " " + h + ":" + mi + ":" + se;
    forall i | 0 <= i < 19 ensures FitsTimestampAt(i, s[i]) {
      if i < 4 { assert s[i] == y[i]; }
      else if 5 <= i < 7 { assert s[i] == mo[i - 5]; }
      else if 8 <= i < 10 { assert s[i] == d[i - 8]; }
      else if 11 <= i < 13 { assert s[i] == h[i - 11]; }
      else if 14 <= i < 16 { assert s[i] == mi[i - 14]; }
      else if 17 <= i { assert s[i] == se[i - 17]; }
    }
  }

  /** Two readings render the same date exactly when they fall on the same day. */
  lemma {:induction false} SameDateIffSameDay(t: DateTime, u: DateTime)
    requires Valid(t) && Valid(u)
    ensures TodayCnStr(t) == TodayCnStr(u) <==> SameDay(t, u)
  {
    var dt, du := TodayCnStr(t), TodayCnStr(u);
    if dt == du {
      assert dt[..4] == PadDigits(t.year, 4) && du[..4] == PadDigits(u.year, 4);
      assert dt[5..7] == PadDigits(t.month, 2) && du[5..7] == PadDigits(u.month, 2);
      assert dt[8..] == PadDigits(t.day, 2) && du[8..] == PadDigits(u.day, 2);
      assert Pow10(2) == 100 && Pow10(4) == 10000;
      PadDigitsInjective(t.year, u.year, 4);
      PadDigitsInjective(t.month, u.month, 2);
      PadDigitsInjective(t.day, u.day, 2);
    }
  }
}

=== FILE: marker.dfy ===
/**
 * The per-slot marker file: `signed_file`, the record line `append_signed` writes, the file
 * as an append-only text, and the `has_done_today` check that reads it back.
 */
module Marker {
  import opened Text
  import opened Clock
  import opened Wrappers

  /** `signed_file(slot)`: the slot between the `SIGNED_` prefix and the `.txt` extension. */
  function SignedFile(slot: string): (f: string)
    ensures |f| == |slot| + 11
    ensures f[..7] == "SIGNED_" && f[7..|f| - 4] == slot && f[|f| - 4..] == ".txt"
  {
    "SIGNED_" + slot + ".txt"
  }

  /** Distinct slots never share a marker file. */
  lemma SignedFileInjective(a: string, b: string)
    requires SignedFile(a) == SignedFile(b)
    ensures a == b
  {
    var fa, fb := SignedFile(a), SignedFile(b);
    assert |a| == |b|;
    assert fa[7..7 + |a|] == a && fb[7..7 + |b|] == b;
  }

  /** The status names the script records. */
  datatype Status = Success | AlreadyDone | CheckNoConfig | Failed

  function StatusName(st: Status): string {
    match st
    case Success => "SUCCESS"
    case AlreadyDone => "ALREADY_DONE"
    case CheckNoConfig => "CHECK_NO_CONFIG"
    case Failed => "FAILED"
  }

  /** `FINAL_STATUSES`: a line naming one of these means the day's run is over. */
  const FinalStatuses: set<string> := {"SUCCESS", "ALREADY_DONE", "CHECK_NO_CONFIG"}

  predicate IsFinal(st: Status) {
    StatusName(st) in FinalStatuses
  }

  /** `any(s in line for s in FINAL_STATUSES)`. */
  predicate MentionsFinal(line: string) {
    exists w :: w in FinalStatuses && Contains(line, w)
  }

  /** One iteration of the check in `has_done_today`. */
  predicate IsDoneLine(line: string, today: string) {
    StartsWith(line, today) && MentionsFinal(line)
  }

  /** What `has_done_today` answers about the lines of an existing marker file. */
  ghost predicate DoneToday(lines: seq<string>, today: string) {
    exists k :: 0 <= k < |lines| && IsDoneLine(lines[k], today)
  }

  /**
   * The optional arguments of `append_signed`. `used` is the already rendered `f"{used:.2f}"`
   * text of the float, or `None`.
   */
  datatype Extras = Extras(remaining: string, used: Option<string>, expire: string, detail: string, history: string)

  /** The defaults of `append_signed`: every optional field renders as `-`. */
  const Defaults := Extras("-", None, "-", "-", "-")

  function UsedPart(used: Option<string>): string {
    match used
    case None => "-"
    case Some(u) => u + "GB"
  }

  /** The first f-string of the record: stamp, slot, masked email and status. */
  function RecordHead(ts: string, slot: string, email: string, st: Status): string {
    ts + " | " + slot + " | " + email + " | " + StatusName(st) + " | "
  }

  /** The second f-string of the record: the `key=value` fields and the line end. */
  function RecordTail(x: Extras): string {
    "remaining=" + x.remaining + " | used=" + UsedPart(x.used) + " | expire=" + x.expire
    + " | history=" + x.history + " | detail=" + x.detail + "\n"
  }

  /** The `line` that `append_signed` writes: it starts with the stamp and ends in a line end. */
  function RecordLine(ts: string, slot: string, email: string, st: Status, x: Extras): (r: string)
    ensures StartsWith(r, ts)
    ensures r != [] && WellTerminated(r)
  {
    assert (ts + " | " + slot + " | " + email + " | " + StatusName(st) + " | ")[..|ts|] == ts;
    RecordHead(ts, slot, email, st) + RecordTail(x)
  }

  /** The record of a slot without credentials: every optional field is its default `-`. */
  lemma NoConfigRecord(ts: string, slot: string, email: string)
    ensures RecordLine(ts, slot, email, CheckNoConfig, Defaults)
            == ts + " | " + slot + " | " + email + " | CHECK_NO_CONFIG | "
               + "remaining=- | used=- | expire=- | history=- | detail=-\n"
  {
    var head := ts + " | " + slot + " | " + email;
    var tail := "remaining=- | used=- | expire=- | history=- | detail=-\n";
    DefaultsTail();
    assert RecordHead(ts, slot, email, CheckNoConfig) == head + " | " + "CHECK_NO_CONFIG" + " | ";
    assert " | " + "CHECK_NO_CONFIG" + " | " == " | CHECK_NO_CONFIG | ";
    Regroup3(head, " | ", "CHECK_NO_CONFIG", " | ");
  }

  /** With the defaults, the second f-string renders every field as `-`. */
  lemma DefaultsTail()
    ensures RecordTail(Defaults) == "remaining=- | used=- | expire=- | history=- | detail=-\n"
  {
    var a := "remaining=" + "-";
    assert a == "remaining=-";
    var b := a + " | used=" + "-";
    assert b == "remaining=- | used=-";
    var c := b + " | expire=" + "-";
    assert c == "remaining=- | used=- | expire=-";
    var d := c + " | history=" + "-";
    assert d == "remaining=- | used=- | expire=- | history=-";
    var e := d + " | detail=" + "-" + "\n";
    assert e == "remaining=- | used=- | expire=- | history=- | detail=-\n";
  }

  /** Associativity for four pieces, stated over plain variables. */
  lemma Regroup3(a: string, b: string, c: string, d: string)
    ensures a + b + c + d == a + (b + c + d)
  {
  }

  // ---------------------------------------------------------------- reading a file back

  /** The line ends Python's text mode recognises when reading (`newline=None`). */
  predicate IsNewline(c: char) {
    c == '\n' || c == '\r'
  }

  predicate NoNewline(s: string) {
    forall j :: 0 <= j < |s| ==> !IsNewline(s[j])
  }

  function NewlineIndex(s: string): (k: nat)
    ensures k <= |s|
    ensures k < |s| ==> IsNewline(s[k])
    ensures forall j :: 0 <= j < k ==> !IsNewline(s[j])
    decreases |s|
  {
    if s == [] then 0
    else if IsNewline(s[0]) then 0
    else 1 + NewlineIndex(s[1..])
  }

  /**
   * `for line in f` over a file opened for reading in text mode: `\r\n`, `\r` and `\n` each end
   * a line and are read as `\n`; a last line without an end is read as it is.
   */
  function FileLines(text: string): (lines: seq<string>)
    ensures |lines| == 0 <==> text == []
    ensures forall i :: 0 <= i < |lines| ==> lines[i] != [] && NoNewline(lines[i][..|lines[i]| - 1])
    ensures forall i :: 0 <= i < |lines| - 1 ==> lines[i][|lines[i]| - 1] == '\n'
    ensures WellTerminated(text) ==> forall i :: 0 <= i < |lines| ==> lines[i][|lines[i]| - 1] == '\n'
    decreases |text|
  {
    if text == [] then []
    else
      var k := NewlineIndex(text);
      if k == |text| then [text]
      else
        [text[..k] + "\n"] + FileLines(text[BreakEnd(text, k)..])
  }

  /**
   * `lines` is how text mode reads `text`: each line but the last is a piece without line ends
   * followed by `\n`, standing for the `\n`, `\r` or `\r\n` that follows the piece in the text
   * (`\r\n` counts as one end); the last line may instead be the rest of the text, non-empty and
   * without line ends, read as it is.
   */
  ghost predicate ReadsAs(text: string, lines: seq<string>)
    decreases |lines|
  {
    if lines == [] then text == []
    else
      var line := lines[0];
      (lines == [text] && text != [] && NoNewline(text))
      || (|line| > 0 && line[|line| - 1] == '\n'
          && var n := |line| - 1;
             n < |text| && StartsWith(text, line[..n]) && NoNewline(line[..n]) && IsNewline(text[n])
             && ReadsAs(text[BreakEnd(text, n)..], lines[1..]))
  }

  /** Reading a text gives lines that, with their ends restored, make up the text. */
  lemma {:induction false} FileLinesRoundTrip(text: string)
    ensures ReadsAs(text, FileLines(text))
    decreases |text|
  {
    if text != [] {
      var n := NewlineIndex(text);
      FileLinesUnfold(text);
      if n < |text| {
        var next := BreakEnd(text, n);
        var line := text[..n] + "\n";
        FileLinesRoundTrip(text[next..]);
        assert line[..n] == text[..n] && text[..n][..n] == text[..n];
        assert NoNewline(text[..n]);
        ConsTail(line, FileLines(text[next..]));
      } else {
        assert NoNewline(text);
      }
    }
  }

  /** Any reading of a text in that sense is the one `FileLines` gives. */
  lemma {:induction false} ReadsAsIsFileLines(text: string, lines: seq<string>)
    requires ReadsAs(text, lines)
    ensures lines == FileLines(text)
    decreases |lines|
  {
    if lines != [] {
      if lines == [text] && text != [] && NoNewline(text) {
        WholeReading(text);
      } else {
        var n := |lines[0]| - 1;
        ReadsAsHead(text, lines);
        ReadsAsIsFileLines(text[BreakEnd(text, n)..], lines[1..]);
        PieceReading(text, lines[0][..n]);
        assert lines == [lines[0]] + lines[1..];
      }
    }
  }

  /** The first line of a reading that is not the whole text, spelled out. */
  lemma ReadsAsHead(text: string, lines: seq<string>)
    requires ReadsAs(text, lines) && lines != [] && !(lines == [text] && text != [] && NoNewline(text))
    ensures |lines[0]| > 0
    ensures var n := |lines[0]| - 1;
      n < |text| && lines[0] == lines[0][..n] + "\n"
      && StartsWith(text, lines[0][..n]) && NoNewline(lines[0][..n]) && IsNewline(text[n])
      && ReadsAs(text[BreakEnd(text, n)..], lines[1..])
  {
  }

  /** A non-empty text without line ends is read as one line, as it is. */
  lemma WholeReading(text: string)
    requires text != [] && NoNewline(text)
    ensures FileLines(text) == [text]
  {
    FileLinesUnfold(text);
  }

  /** A text opening with a piece and a line end is read as that piece, `\n`, then the rest. */
  lemma PieceReading(text: string, piece: string)
    requires |piece| < |text| && StartsWith(text, piece) && NoNewline(piece) && IsNewline(text[|piece|])
    ensures FileLines(text) == [piece + "\n"] + FileLines(text[BreakEnd(text, |piece|)..])
  {
    PieceIsNewlineIndex(text, piece);
    FileLinesUnfold(text);
  }

  lemma PieceIsNewlineIndex(text: string, piece: string)
    requires |piece| < |text| && StartsWith(text, piece) && NoNewline(piece) && IsNewline(text[|piece|])
    ensures NewlineIndex(text) == |piece| && text[..|piece|] == piece
  {
    forall j | 0 <= j < |piece| ensures !IsNewline(text[j]) {
      assert text[j] == text[..|piece|][j];
    }
  }

  /** `for line in f` yields exactly the lines that read the text back in that sense. */
  lemma FileLinesCharacterized(text: string, lines: seq<string>)
    ensures ReadsAs(text, lines) <==> lines == FileLines(text)
  {
    FileLinesRoundTrip(text);
    if ReadsAs(text, lines) {
      ReadsAsIsFileLines(text, lines);
    }
  }

  /** A file every write of which ended in `\n`, as every record does. */
  predicate WellTerminated(text: string) {
    text == [] || text[|text| - 1] == '\n'
  }

  /** Appending to a well-terminated file leaves its lines as they were and adds the new ones. */
  lemma {:induction false} LinesConcat(a: string, b: string)
    requires WellTerminated(a)
    ensures FileLines(a + b) == FileLines(a) + FileLines(b)
    decreases |a|
  {
    if a == [] {
      assert a + b == b;
    } else {
      var k := NewlineIndex(a);
      var next := BreakEnd(a, k);
      LinesConcatStep(a, b);
      LinesConcat(a[next..], b);
      LinesRegroup([a[..k] + "\n"], FileLines(a[next..]), FileLines(b));
    }
  }

  /**
   * Associativity of concatenation, stated over plain variables so that the solver need not
   * regroup terms that hold function applications.
   */
  lemma LinesRegroup(x: seq<string>, y: seq<string>, z: seq<string>)
    ensures x + (y + z) == x + y + z
  {
  }

  /** The first line of a well-terminated `a` is also the first line of `a + b`. */
  lemma LinesConcatStep(a: string, b: string)
    requires WellTerminated(a) && a != []
    ensures var k := NewlineIndex(a);
      k < |a| && WellTerminated(a[BreakEnd(a, k)..])
      && FileLines(a) == [a[..k] + "\n"] + FileLines(a[BreakEnd(a, k)..])
      && FileLines(a + b) == [a[..k] + "\n"] + FileLines(a[BreakEnd(a, k)..] + b)
  {
    var s := a + b;
    var k := NewlineIndex(a);
    assert k < |a|;
    assert forall j :: 0 <= j <= k ==> s[j] == a[j];
    assert NewlineIndex(s) == k by {
      NewlineIndexPrefix(a, b);
    }
    var next := BreakEnd(a, k);
    assert a[k] == '\r' ==> k + 1 < |a|;
    assert BreakEnd(s, k) == next;
    assert s[..k] == a[..k];
    assert s[next..] == a[next..] + b;
  }

  lemma NewlineIndexPrefix(a: string, b: string)
    requires NewlineIndex(a) < |a|
    ensures NewlineIndex(a + b) == NewlineIndex(a)
  {
    var k, s := NewlineIndex(a), a + b;
    assert forall j :: 0 <= j <= k ==> s[j] == a[j];
  }

  /** A text with one line end, at its end, is read as exactly one line. */
  lemma SingleLine(line: string)
    requires |line| > 0 && line[|line| - 1] == '\n' && NoNewline(line[..|line| - 1])
    ensures FileLines(line) == [line]
  {
    var k := |line| - 1;
    NewlineAtEnd(line);
    assert BreakEnd(line, k) == |line|;
    assert line[..k] + "\n" == line;
    assert line[k + 1..] == [];
  }

  lemma NewlineAtEnd(line: string)
    requires |line| > 0 && line[|line| - 1] == '\n' && NoNewline(line[..|line| - 1])
    ensures NewlineIndex(line) == |line| - 1
  {
    assert forall j :: 0 <= j < |line| - 1 ==> line[..|line| - 1][j] == line[j];
  }

  /** The first line read from `p + q` begins with all of `p` when `p` has no line end. */
  lemma FirstLine(p: string, q: string)
    requires NoNewline(p) && NewlineIndex(p + q) < |p + q|
    ensures var n := NewlineIndex(p + q);
      |p| <= n && |FileLines(p + q)| > 0 && FileLines(p + q)[0] == p + (p + q)[|p|..n] + "\n"
  {
    var s := p + q;
    var n := NewlineIndex(s);
    assert forall j :: 0 <= j < |p| ==> s[j] == p[j];
    assert s[..n] == p + s[|p|..n];
  }

  /** Every line read from a text is a piece of it, give or take its line end. */
  lemma {:induction false} LineInText(text: string, k: int, w: string)
    requires 0 <= k < |FileLines(text)| && |w| > 0 && forall j :: 0 <= j < |w| ==> w[j] != '\n'
    requires Contains(FileLines(text)[k], w)
    ensures Contains(text, w)
    decreases |text|
  {
    var n := NewlineIndex(text);
    FileLinesUnfold(text);
    if n < |text| {
      var next := BreakEnd(text, n);
      var rest := FileLines(text[next..]);
      if k == 0 {
        FirstPieceInText(text, n, w);
      } else {
        ConsIndex(text[..n] + "\n", rest, k);
        LineInText(text[next..], k - 1, w);
        assert text == text[..next] + text[next..] + "";
        ContainsInfix(text[..next], text[next..], "", w);
      }
    }
  }

  lemma FileLinesUnfold(text: string)
    requires text != []
    ensures var n := NewlineIndex(text);
      FileLines(text)
      == if n == |text| then [text] else [text[..n] + "\n"] + FileLines(text[BreakEnd(text, n)..])
  {
  }

  /** Indexing past the head of a list, stated apart to keep the caller's context small. */
  lemma ConsIndex(x: string, rest: seq<string>, k: int)
    requires 0 < k <= |rest|
    ensures ([x] + rest)[k] == rest[k - 1]
  {
  }

  lemma FirstPieceInText(text: string, n: nat, w: string)
    requires n <= |text| && |w| > 0 && forall j :: 0 <= j < |w| ==> w[j] != '\n'
    requires Contains(text[..n] + "\n", w)
    ensures Contains(text, w)
  {
    var piece := text[..n];
    assert piece + "\n" == piece + "\n" + "";
    ContainsAcrossGlue(piece, "\n", "", w);
    assert !Contains("", w);
    assert text == piece + text[n..];
    ContainsPrefix(piece, text[n..], w);
  }

  // ---------------------------------------------------------------- the file store

  /** The loop of `has_done_today` over the lines of the file, stopping at the first done line. */
  method AnyDoneLine(lines: seq<string>, today: string) returns (done: bool)
    ensures done <==> DoneToday(lines, today)
  {
    for i := 0 to |lines|
      invariant forall j :: 0 <= j < i ==> !IsDoneLine(lines[j], today)
    {
      if IsDoneLine(lines[i], today) {
        return true;
      }
    }
    return false;
  }

  /** The marker files on disk, by path. */
  class MarkerStore {
    var files: map<string, string>

    constructor (initial: map<string, string>)
      ensures files == initial
    {
      files := initial;
    }

    /** What reading `path` yields; a missing file reads as empty once `append` creates it. */
    function Content(path: string): string
      reads this
    {
      if path in files then files[path] else ""
    }

    /** `has_done_today(slot)`, with `now` the reading of the clock `today_cn_str` takes. */
    method HasDoneToday(slot: string, now: DateTime) returns (done: bool)
      ensures done <==> SignedFile(slot) in files
                        && DoneToday(FileLines(files[SignedFile(slot)]), TodayCnStr(now))
    {
      var path := SignedFile(slot);
      if path !in files {
        return false;
      }
      done := AnyDoneLine(FileLines(files[path]), TodayCnStr(now));
    }

    /** `append_signed(...)`, with `now` the reading of the clock `ts_cn_str` takes. */
    method AppendSigned(slot: string, st: Status, email: string, x: Extras, now: DateTime)
      modifies this
      ensures files == old(files)[SignedFile(slot) := old(Content(SignedFile(slot)))
                                                      + RecordLine(TsCnStr(now), slot, email, st, x)]
      ensures WellTerminated(old(Content(SignedFile(slot)))) ==>
        WellTerminated(files[SignedFile(slot)])
        && FileLines(files[SignedFile(slot)])
           == FileLines(old(Content(SignedFile(slot)))) + FileLines(RecordLine(TsCnStr(now), slot, email, st, x))
      ensures NoNewline(slot) && NoNewline(email) && IsFinal(st)
              && WellTerminated(old(Content(SignedFile(slot)))) ==>
        DoneToday(FileLines(files[SignedFile(slot)]), TodayCnStr(now))
    {
      var path := SignedFile(slot);
      var line := RecordLine(TsCnStr(now), slot, email, st, x);
      var before := Content(path);
      files := files[path := before + line];
      if WellTerminated(before) {
        LinesConcat(before, line);
        if NoNewline(slot) && NoNewline(email) && IsFinal(st) {
          DoneAfterAppend(before, now, now, slot, email, st, x);
        }
      }
    }
  }

  // ---------------------------------------------------------------- write, then query

  lemma NoNewlineConcat(a: string, b: string)
    requires NoNewline(a) && NoNewline(b)
    ensures NoNewline(a + b)
  {
    forall j | 0 <= j < |a + b| ensures !IsNewline((a + b)[j]) {
      if j >= |a| { assert (a + b)[j] == b[j - |a|]; }
    }
  }

  lemma TimestampNoNewline(ts: string)
    requires IsTimestamp(ts)
    ensures NoNewline(ts)
  {
    forall j | 0 <= j < |ts| ensures !IsNewline(ts[j]) {
      assert FitsTimestampAt(j, ts[j]);
    }
  }

  /** The record's first f-string stays on one line when slot and email do. */
  lemma HeadNoNewline(ts: string, slot: string, email: string, st: Status)
    requires IsTimestamp(ts) && NoNewline(slot) && NoNewline(email)
    ensures NoNewline(RecordHead(ts, slot, email, st))
  {
    TimestampNoNewline(ts);
    var sep := " | ";
    assert NoNewline(sep);
    assert NoNewline(StatusName(st));
    NoNewlineConcat(ts, sep);
    NoNewlineConcat(ts + sep, slot);
    NoNewlineConcat(ts + sep + slot, sep);
    NoNewlineConcat(ts + sep + slot + sep, email);
    NoNewlineConcat(ts + sep + slot + sep + email, sep);
    NoNewlineConcat(ts + sep + slot + sep + email + sep, StatusName(st));
    NoNewlineConcat(ts + sep + slot + sep + email + sep + StatusName(st), sep);
  }

  /** The record's first line names its status, its slot and its email. */
  lemma HeadContains(ts: string, slot: string, email: string, st: Status, w: string)
    requires Contains(slot, w) || Contains(email, w) || w == StatusName(st)
    ensures Contains(RecordHead(ts, slot, email, st), w)
  {
    var sep, name := " | ", StatusName(st);
    if Contains(slot, w) {
      ContainsSuffix(ts + sep, slot, w);
      ContainsPrefix(ts + sep + slot, sep, w);
      ContainsPrefix(ts + sep + slot + sep, email, w);
    }
    if Contains(ts + sep + slot + sep + email, w) || Contains(email, w) {
      if !Contains(ts + sep + slot + sep + email, w) {
        ContainsSuffix(ts + sep + slot + sep, email, w);
      }
      ContainsPrefix(ts + sep + slot + sep + email, sep, w);
      ContainsPrefix(ts + sep + slot + sep + email + sep, name, w);
    } else {
      assert Contains(name, w) by {
        assert name[..|w|] == w;
      }
      ContainsSuffix(ts + sep + slot + sep + email + sep, name, w);
    }
    ContainsPrefix(ts + sep + slot + sep + email + sep + name, sep, w);
  }

  /** The first line read back from a record made at `now` counts for that day. */
  lemma RecordFirstLineDone(now: DateTime, slot: string, email: string, st: Status, x: Extras)
    requires NoNewline(slot) && NoNewline(email)
    requires IsFinal(st) || MentionsFinal(slot) || MentionsFinal(email)
    ensures var lines := FileLines(RecordLine(TsCnStr(now), slot, email, st, x));
      |lines| > 0 && IsDoneLine(lines[0], TodayCnStr(now))
  {
    TodayPrefixesTimestamp(now);
    StampedFirstLineDone(TsCnStr(now), TodayCnStr(now), slot, email, st, x);
  }

  /** The same, for any stamp that starts with the day's date string. */
  lemma StampedFirstLineDone(ts: string, today: string, slot: string, email: string, st: Status, x: Extras)
    requires IsTimestamp(ts) && StartsWith(ts, today)
    requires NoNewline(slot) && NoNewline(email)
    requires IsFinal(st) || MentionsFinal(slot) || MentionsFinal(email)
    ensures var lines := FileLines(RecordLine(ts, slot, email, st, x));
      |lines| > 0 && IsDoneLine(lines[0], today)
  {
    var head, tail := RecordHead(ts, slot, email, st), RecordTail(x);
    var rec := head + tail;
    HeadNoNewline(ts, slot, email, st);
    assert rec[|rec| - 1] == '\n';
    var n := NewlineIndex(rec);
    FirstLine(head, tail);
    var mid := rec[|head|..n];
    HeadStartsWith(ts, slot, email, st, today);
    StartsWithConcat(head, mid, today);
    StartsWithConcat(head + mid, "\n", today);
    var w :| w in FinalStatuses && (w == StatusName(st) || Contains(slot, w) || Contains(email, w));
    HeadContains(ts, slot, email, st, w);
    ContainsPrefix(head, mid, w);
    ContainsPrefix(head + mid, "\n", w);
  }

  /** A record starts with whatever its stamp starts with. */
  lemma HeadStartsWith(ts: string, slot: string, email: string, st: Status, p: string)
    requires StartsWith(ts, p)
    ensures StartsWith(RecordHead(ts, slot, email, st), p)
  {
    var sep, name := " | ", StatusName(st);
    StartsWithConcat(ts, sep, p);
    StartsWithConcat(ts + sep, slot, p);
    StartsWithConcat(ts + sep + slot, sep, p);
    StartsWithConcat(ts + sep + slot + sep, email, p);
    StartsWithConcat(ts + sep + slot + sep + email, sep, p);
    StartsWithConcat(ts + sep + slot + sep + email + sep, name, p);
    StartsWithConcat(ts + sep + slot + sep + email + sep + name, sep, p);
  }

  lemma StartsWithConcat(a: string, b: string, p: string)
    requires StartsWith(a, p)
    ensures StartsWith(a + b, p)
  {
    assert (a + b)[..|p|] == a[..|p|];
  }

  lemma ContainsPrefix(x: string, b: string, w: string)
    requires Contains(x, w)
    ensures Contains(x + b, w)
  {
    ContainsInfix("", x, b, w);
    assert "" + x + b == x + b;
  }

  lemma ContainsSuffix(a: string, x: string, w: string)
    requires Contains(x, w)
    ensures Contains(a + x, w)
  {
    ContainsInfix(a, x, "", w);
    assert a + x + "" == a + x;
  }

  /**
   * Write, then query: once a record is appended to a well-terminated marker file, the check
   * later the same day finds it if its status is final, or if its slot or email happen to contain
   * a final status name (so even a `FAILED` record of a slot named `SUCCESS_2` counts).
   */
  lemma DoneAfterAppend(before: string, now: DateTime, later: DateTime, slot: string, email: string,
                        st: Status, x: Extras)
    requires WellTerminated(before) && SameDay(now, later)
    requires NoNewline(slot) && NoNewline(email)
    requires IsFinal(st) || MentionsFinal(slot) || MentionsFinal(email)
    ensures DoneToday(FileLines(before + RecordLine(TsCnStr(now), slot, email, st, x)), TodayCnStr(later))
  {
    var rec := RecordLine(TsCnStr(now), slot, email, st, x);
    RecordFirstLineDone(now, slot, email, st, x);
    assert TodayCnStr(now) == TodayCnStr(later);
    LinesConcat(before, rec);
    var k := |FileLines(before)|;
    assert FileLines(before + rec)[k] == FileLines(rec)[0];
  }

  // ---------------------------------------------------------------- records that do not count

  /** The characters status names are spelled with. */
  predicate IsStatusChar(c: char) {
    'A' <= c <= 'Z' || c == '_'
  }

  predicate NoStatusChars(g: string) {
    forall j :: 0 <= j < |g| ==> !IsStatusChar(g[j])
  }

  lemma FinalNamesSpelled(w: string)
    requires w in FinalStatuses
    ensures |w| >= 7 && forall j :: 0 <= j < |w| ==> IsStatusChar(w[j])
  {
  }

  lemma SeparatorsPlain()
    ensures NoStatusChars(" | ") && NoStatusChars("remaining=") && NoStatusChars(" | used=")
    ensures NoStatusChars(" | expire=") && NoStatusChars(" | history=") && NoStatusChars(" | detail=")
    ensures NoStatusChars("\n")
  {
  }

  /** A final status name cannot run across a separator none of whose characters spell it. */
  lemma NoMentionGlue(a: string, g: string, b: string)
    requires !MentionsFinal(a) && !MentionsFinal(b) && |g| > 0 && NoStatusChars(g)
    ensures !MentionsFinal(a + g + b)
  {
    forall w | w in FinalStatuses ensures !Contains(a + g + b, w) {
      FinalNamesSpelled(w);
      if Contains(a + g + b, w) {
        ContainsAcrossGlue(a, g, b, w);
      }
    }
  }

  /** Text without capitals and underscores names no status. */
  lemma PlainNoMention(s: string)
    requires NoStatusChars(s)
    ensures !MentionsFinal(s)
  {
    forall w | w in FinalStatuses ensures !Contains(s, w) {
      FinalNamesSpelled(w);
      ContainsIff(s, w);
      if i :| OccursAt(s, w, i) {
        OccurrenceCovers(s, w, i, i);
      }
    }
  }

  lemma ShortNoMention(s: string)
    requires |s| < 7
    ensures !MentionsFinal(s)
  {
    forall w | w in FinalStatuses ensures !Contains(s, w) {
      FinalNamesSpelled(w);
    }
  }

  lemma TimestampPlain(ts: string)
    requires IsTimestamp(ts)
    ensures NoStatusChars(ts)
  {
    forall j | 0 <= j < |ts| ensures !IsStatusChar(ts[j]) {
      assert FitsTimestampAt(j, ts[j]);
    }
  }

  /** The `key=value` part of a record names no status when none of its values does. */
  lemma TailNoMention(x: Extras)
    requires !MentionsFinal(x.remaining) && !MentionsFinal(UsedPart(x.used)) && !MentionsFinal(x.expire)
    requires !MentionsFinal(x.history) && !MentionsFinal(x.detail)
    ensures !MentionsFinal(RecordTail(x))
  {
    SeparatorsPlain();
    ShortNoMention("");
    var b1 := "remaining=" + x.remaining;
    assert "" + "remaining=" + x.remaining == b1;
    NoMentionGlue("", "remaining=", x.remaining);
    var b2 := b1 + " | used=" + UsedPart(x.used);
    NoMentionGlue(b1, " | used=", UsedPart(x.used));
    var b3 := b2 + " | expire=" + x.expire;
    NoMentionGlue(b2, " | expire=", x.expire);
    var b4 := b3 + " | history=" + x.history;
    NoMentionGlue(b3, " | history=", x.history);
    var b5 := b4 + " | detail=" + x.detail;
    NoMentionGlue(b4, " | detail=", x.detail);
    assert b5 + "\n" + "" == RecordTail(x);
    NoMentionGlue(b5, "\n", "");
  }

  /** A record names a final status only through its status or one of its fields. */
  lemma RecordNoMention(now: DateTime, slot: string, email: string, st: Status, x: Extras)
    requires !IsFinal(st) && !MentionsFinal(slot) && !MentionsFinal(email)
    requires !MentionsFinal(x.remaining) && !MentionsFinal(UsedPart(x.used)) && !MentionsFinal(x.expire)
    requires !MentionsFinal(x.history) && !MentionsFinal(x.detail)
    ensures !MentionsFinal(RecordLine(TsCnStr(now), slot, email, st, x))
  {
    var ts, sep := TsCnStr(now), " | ";
    SeparatorsPlain();
    TimestampPlain(ts);
    PlainNoMention(ts);
    assert st == Failed;
    ShortNoMention(StatusName(st));
    NoMentionGlue(ts, sep, slot);
    NoMentionGlue(ts + sep + slot, sep, email);
    var a3 := ts + sep + slot + sep + email + sep + StatusName(st);
    NoMentionGlue(ts + sep + slot + sep + email, sep, StatusName(st));
    TailNoMention(x);
    NoMentionGlue(a3, sep, RecordTail(x));
  }

  /**
   * A `FAILED` record whose slot, email and fields name no final status leaves the answer of
   * the check as it was: whatever the day, it does not make the file count as done.
   */
  lemma FailedRecordNotDone(before: string, today: string, now: DateTime, slot: string, email: string,
                            st: Status, x: Extras)
    requires WellTerminated(before) && !DoneToday(FileLines(before), today)
    requires !IsFinal(st) && !MentionsFinal(slot) && !MentionsFinal(email)
    requires !MentionsFinal(x.remaining) && !MentionsFinal(UsedPart(x.used)) && !MentionsFinal(x.expire)
    requires !MentionsFinal(x.history) && !MentionsFinal(x.detail)
    ensures !DoneToday(FileLines(before + RecordLine(TsCnStr(now), slot, email, st, x)), today)
  {
    RecordNoMention(now, slot, email, st, x);
    AppendPlainNotDone(before, RecordLine(TsCnStr(now), slot, email, st, x), today);
  }

  lemma AppendPlainNotDone(before: string, rec: string, today: string)
    requires WellTerminated(before) && !DoneToday(FileLines(before), today) && !MentionsFinal(rec)
    ensures !DoneToday(FileLines(before + rec), today)
  {
    LinesConcat(before, rec);
    forall k | 0 <= k < |FileLines(rec)| ensures !MentionsFinal(FileLines(rec)[k]) {
      LinesNoMention(rec, k);
    }
    NotDoneConcat(FileLines(before), FileLines(rec), today);
  }

  /** Lines naming no final status added after lines that do not count leave the answer false. */
  lemma NotDoneConcat(xs: seq<string>, ys: seq<string>, today: string)
    requires !DoneToday(xs, today) && forall k :: 0 <= k < |ys| ==> !MentionsFinal(ys[k])
    ensures !DoneToday(xs + ys, today)
  {
    forall k | |xs| <= k < |xs + ys| ensures (xs + ys)[k] == ys[k - |xs|] {
    }
  }

  lemma LinesNoMention(text: string, k: int)
    requires !MentionsFinal(text) && 0 <= k < |FileLines(text)|
    ensures !MentionsFinal(FileLines(text)[k])
  {
    forall w | w in FinalStatuses ensures !Contains(FileLines(text)[k], w) {
      FinalNamesSpelled(w);
      if Contains(FileLines(text)[k], w) {
        LineInText(text, k, w);
      }
    }
  }

  /** All fields of a record stay on one line. */
  predicate OneLineFields(slot: string, email: string, x: Extras) {
    NoNewline(slot) && NoNewline(email) && NoNewline(x.remaining) && NoNewline(UsedPart(x.used))
    && NoNewline(x.expire) && NoNewline(x.history) && NoNewline(x.detail)
  }

  /** With one-line fields a record is read back as exactly the one line written. */
  lemma RecordIsOneLine(ts: string, slot: string, email: string, st: Status, x: Extras)
    requires IsTimestamp(ts) && OneLineFields(slot, email, x)
    ensures FileLines(RecordLine(ts, slot, email, st, x)) == [RecordLine(ts, slot, email, st, x)]
  {
    var head := RecordHead(ts, slot, email, st);
    HeadNoNewline(ts, slot, email, st);
    var b1 := "remaining=" + x.remaining;
    NoNewlineConcat("remaining=", x.remaining);
    var b2 := b1 + " | used=" + UsedPart(x.used);
    NoNewlineConcat(b1, " | used=");
    NoNewlineConcat(b1 + " | used=", UsedPart(x.used));
    var b3 := b2 + " | expire=" + x.expire;
    NoNewlineConcat(b2, " | expire=");
    NoNewlineConcat(b2 + " | expire=", x.expire);
    var b4 := b3 + " | history=" + x.history;
    NoNewlineConcat(b3, " | history=");
    NoNewlineConcat(b3 + " | history=", x.history);
    var b5 := b4 + " | detail=" + x.detail;
    NoNewlineConcat(b4, " | detail=");
    NoNewlineConcat(b4 + " | detail=", x.detail);
    NoNewlineConcat(head, b5);
    var rec := RecordLine(ts, slot, email, st, x);
    assert rec == head + b5 + "\n";
    assert rec[..|rec| - 1] == head + b5;
    SingleLine(rec);
  }

  /**
   * A record stamped on another day does not count for today, whatever its status: with its
   * fields on one line, it is one line, and that line starts with its own date.
   */
  lemma OtherDayNotDone(before: string, now: DateTime, later: DateTime, slot: string, email: string,
                        st: Status, x: Extras)
    requires WellTerminated(before) && Valid(now) && Valid(later) && !SameDay(now, later)
    requires OneLineFields(slot, email, x)
    requires !DoneToday(FileLines(before), TodayCnStr(later))
    ensures !DoneToday(FileLines(before + RecordLine(TsCnStr(now), slot, email, st, x)), TodayCnStr(later))
  {
    TodayPrefixesTimestamp(now);
    TodayPrefixesTimestamp(later);
    SameDateIffSameDay(now, later);
    StampedOtherDay(before, TsCnStr(now), TodayCnStr(now), TodayCnStr(later), slot, email, st, x);
  }

  /** The same, for a stamp starting with a date string `own` of the same length as `today`. */
  lemma StampedOtherDay(before: string, ts: string, own: string, today: string, slot: string, email: string,
                        st: Status, x: Extras)
    requires WellTerminated(before) && IsTimestamp(ts) && StartsWith(ts, own)
    requires |own| == |today| && own != today
    requires OneLineFields(slot, email, x)
    requires !DoneToday(FileLines(before), today)
    ensures !DoneToday(FileLines(before + RecordLine(ts, slot, email, st, x)), today)
  {
    var head, rec := RecordHead(ts, slot, email, st), RecordLine(ts, slot, email, st, x);
    RecordIsOneLine(ts, slot, email, st, x);
    LinesConcat(before, rec);
    HeadStartsWith(ts, slot, email, st, own);
    StartsWithConcat(head, RecordTail(x), own);
    assert !StartsWith(rec, today);
    assert FileLines(before + rec) == FileLines(before) + [rec];
  }
}

=== FILE: masking.dfy ===
/** `mask_email`: the redacted account name the script logs, records and sends. */
module Masking {
  import opened Text
  import opened Wrappers

  /** The `IndexError` that `name[0]` raises when nothing precedes the first `@`. */
  datatype MaskError = EmptyLocalPart

  /** The redacted local part: one kept character for short names, two at each end otherwise. */
  function MaskLocal(name: string): Result<string, MaskError> {
    if |name| <= 2 then
      if name == [] then Err(EmptyLocalPart) else Ok([name[0]] + "***")
    else
      Ok(name[..2] + "***" + name[|name| - 2..])
  }

  /** Python's `d0[:1]`. */
  function Head(d0: string): string {
    if d0 == [] then "" else d0[..1]
  }

  /** `mask_email` after its `strip()`: the stripped text `s` split at its first `@`. */
  function MaskAddress(s: string): (r: Result<string, MaskError>)
    ensures r == Ok("***") <==> '@' !in s
    ensures r.Err? <==> |s| > 0 && s[0] == '@'
  {
    if '@' !in s then Ok("***")
    else
      var at := IndexOf(s, '@');
      var name, domain := s[..at], s[at + 1..];
      match MaskLocal(name)
      case Err(e) => Err(e)
      case Ok(nameMask) => Ok(nameMask + "@" + MaskDomain(domain))
  }

  /** The domain half of `mask_email`: `d0[:1] + "***" + suffix`, from a split on `.` and a join. */
  function MaskDomain(domain: string): string {
    var parts := SplitOn(domain, '.');
    var d0 := parts[0];
    var suffix := "." + JoinWith(parts[1..], '.');
    Head(d0) + "***" + suffix
  }

  /**
   * `mask_email(email)`: the address is stripped of surrounding white space first. The mask is
   * `***` exactly when there is no `@` anywhere, and an error exactly when the first character
   * that is not white space is the `@`.
   */
  function MaskEmail(email: string): (r: Result<string, MaskError>)
    ensures r == Ok("***") <==> '@' !in email
    ensures r.Err? <==> exists b :: 0 <= b < |email| && AllSpace(email[..b]) && email[b] == '@'
  {
    StripAt(email);
    MaskAddress(Strip(email))
  }

  /** Stripping keeps every `@`, and the stripped text starts where the white space ends. */
  lemma StripAt(s: string)
    ensures '@' in Strip(s) <==> '@' in s
    ensures (|Strip(s)| > 0 && Strip(s)[0] == '@')
            <==> exists b :: 0 <= b < |s| && AllSpace(s[..b]) && s[b] == '@'
  {
    var r := Strip(s);
    var b :| OccursAt(s, r, b) && AllSpace(s[..b]) && AllSpace(s[b + |r|..]);
    StripParts(s, r, b);
    KeepsAt(s, r, b);
    LeadsWithAt(s, r, b);
  }

  /** An `@` of `s` cannot sit in the white space around `r`. */
  lemma KeepsAt(s: string, r: string, b: int)
    requires 0 <= b && b + |r| <= |s|
    requires forall j :: 0 <= j < |s| && !(b <= j < b + |r|) ==> IsSpace(s[j])
    requires forall j :: b <= j < b + |r| ==> s[j] == r[j - b]
    ensures '@' in r <==> '@' in s
  {
    if '@' in s {
      var j :| 0 <= j < |s| && s[j] == '@';
      assert r[j - b] == '@';
    }
    if '@' in r {
      var j :| 0 <= j < |r| && r[j] == '@';
      assert s[b + j] == '@';
    }
  }

  /** `r` starts with `@` exactly when the first character of `s` that is not white space is `@`. */
  lemma LeadsWithAt(s: string, r: string, b: int)
    requires 0 <= b && b + |r| <= |s| && (r == [] || !IsSpace(r[0]))
    requires forall j :: 0 <= j < |s| && !(b <= j < b + |r|) ==> IsSpace(s[j])
    requires forall j :: b <= j < b + |r| ==> s[j] == r[j - b]
    ensures (|r| > 0 && r[0] == '@') <==> exists c :: 0 <= c < |s| && AllSpace(s[..c]) && s[c] == '@'
  {
    if exists c :: 0 <= c < |s| && AllSpace(s[..c]) && s[c] == '@' {
      var c :| 0 <= c < |s| && AllSpace(s[..c]) && s[c] == '@';
      SpacesBefore(s, c);
      assert !IsSpace(s[c]);
      assert b <= c < b + |r|;
      assert s[b] == r[0];
      assert c == b;
    }
    if |r| > 0 && r[0] == '@' {
      SpacesBefore(s, b);
      assert 0 <= b < |s| && AllSpace(s[..b]) && s[b] == '@';
    }
  }

  /** Where the stripped text `r` sits in `s`, everything around it is white space. */
  lemma StripParts(s: string, r: string, b: int)
    requires OccursAt(s, r, b) && AllSpace(s[..b]) && AllSpace(s[b + |r|..])
    ensures forall j :: 0 <= j < |s| && !(b <= j < b + |r|) ==> IsSpace(s[j])
    ensures forall j :: b <= j < b + |r| ==> s[j] == r[j - b]
  {
    SpacesBefore(s, b);
    forall j | b + |r| <= j < |s| ensures IsSpace(s[j]) {
      assert s[b + |r|..][j - b - |r|] == s[j];
    }
  }

  /** `AllSpace` of a prefix, stated for the characters of `s` themselves. */
  lemma SpacesBefore(s: string, c: int)
    requires 0 <= c <= |s| && AllSpace(s[..c])
    ensures forall j :: 0 <= j < c ==> IsSpace(s[j])
  {
    forall j | 0 <= j < c ensures IsSpace(s[j]) {
      assert s[..c][j] == s[j];
    }
  }

  /** `d0[:1]` stated directly: the domain's first character, unless its first label is empty. */
  function LabelInitial(domain: string): string {
    if IndexOf(domain, '.') == 0 then "" else [domain[0]]
  }

  /**
   * The domain half of the mask stated directly: the first character of the domain's first
   * `.`-label (if that label is not empty), `***.`, then everything after the domain's first
   * `.` (nothing when it has none, leaving a bare `.`).
   */
  function DomainMask(domain: string): string {
    LabelInitial(domain) + "***" + ("." + AfterFirst(domain, '.'))
  }

  /** The split-and-join of the domain in `mask_email` is the direct description above. */
  lemma MaskDomainDirect(domain: string)
    ensures MaskDomain(domain) == DomainMask(domain)
  {
    var dot := IndexOf(domain, '.');
    var parts := SplitOn(domain, '.');
    assert parts[0] == domain[..dot];
    assert Head(parts[0]) == LabelInitial(domain);
    SplitTail(domain, '.');
  }

  /** With an `@` present, the mask is the local mask, `@`, and the direct domain mask. */
  lemma MaskAddressShape(s: string)
    requires '@' in s
    ensures var i := IndexOf(s, '@');
      MaskLocal(s[..i]).Ok? ==> MaskAddress(s) == Ok(MaskLocal(s[..i]).value + "@" + DomainMask(s[i + 1..]))
  {
    var i := IndexOf(s, '@');
    MaskAddressSplit(s);
    MaskDomainDirect(s[i + 1..]);
  }

  lemma MaskAddressSplit(s: string)
    requires '@' in s
    ensures var i := IndexOf(s, '@');
      MaskLocal(s[..i]).Ok? ==> MaskAddress(s) == Ok(MaskLocal(s[..i]).value + "@" + MaskDomain(s[i + 1..]))
  {
  }

  /** The masked local part as seen from the input: what stands before the output's `@`. */
  lemma MaskedLocalPart(s: string)
    requires MaskAddress(s).Ok? && '@' in s
    ensures var r, i := MaskAddress(s).value, IndexOf(s, '@');
      if i <= 2 then r[..5] == [s[0]] + "***@"
      else r[..8] == s[..2] + "***" + s[i - 2..i] + "@"
  {
    MaskAddressShape(s);
    var i := IndexOf(s, '@');
    LocalPrefix(s, i, DomainMask(s[i + 1..]));
  }

  lemma LocalPrefix(s: string, i: nat, tail: string)
    requires 0 < i <= |s|
    ensures var r := MaskLocal(s[..i]).value + "@" + tail;
      if i <= 2 then r[..5] == [s[0]] + "***@"
      else r[..8] == s[..2] + "***" + s[i - 2..i] + "@"
  {
    AtSplit(MaskLocal(s[..i]).value, tail);
    LocalMaskEnds(s, i);
  }

  /** The local mask in terms of the whole text, for a local part `s[..i]`. */
  lemma LocalMaskEnds(s: string, i: nat)
    requires 0 < i <= |s|
    ensures var m := MaskLocal(s[..i]).value;
      if i <= 2 then m == [s[0]] + "***" else m == s[..2] + "***" + s[i - 2..i]
  {
    var name := s[..i];
    if i > 2 {
      assert name[..2] == s[..2];
      assert name[i - 2..] == s[i - 2..i];
    }
  }

  lemma AtSplit(nameMask: string, tail: string)
    ensures (nameMask + "@" + tail)[..|nameMask| + 1] == nameMask + "@"
    ensures (nameMask + "@" + tail)[|nameMask| + 1..] == tail
    ensures (nameMask + "@" + tail)[..|nameMask|] == nameMask
  {
  }

  /** Everything after the output's first `@` is the directly described domain mask. */
  lemma MaskedDomain(s: string)
    requires MaskAddress(s).Ok? && '@' in s
    ensures var r, i := MaskAddress(s).value, IndexOf(s, '@');
      var k := IndexOf(r, '@');
      k < |r| && r[k + 1..] == DomainMask(s[i + 1..])
  {
    MaskAddressShape(s);
    var r, i := MaskAddress(s).value, IndexOf(s, '@');
    LocalMaskHasNoAt(s[..i]);
    FirstAt(MaskLocal(s[..i]).value, DomainMask(s[i + 1..]));
  }

  lemma LocalMaskHasNoAt(name: string)
    requires '@' !in name && MaskLocal(name).Ok?
    ensures '@' !in MaskLocal(name).value
  {
    var m := MaskLocal(name).value;
    forall j | 0 <= j < |m| ensures m[j] != '@' {
      if |name| <= 2 {
        assert m == [name[0]] + "***";
      } else {
        assert m == name[..2] + "***" + name[|name| - 2..];
        if j >= 5 { assert m[j] == name[|name| - 2 + j - 5]; }
      }
    }
  }

  lemma FirstAt(nameMask: string, tail: string)
    requires '@' !in nameMask
    ensures IndexOf(nameMask + "@" + tail, '@') == |nameMask|
    ensures (nameMask + "@" + tail)[|nameMask| + 1..] == tail
  {
    var r := nameMask + "@" + tail;
    assert r[|nameMask|] == '@';
    assert forall j :: 0 <= j < |nameMask| ==> r[j] == nameMask[j];
  }

  /**
   * How many `@` the mask holds: its own, one more when the domain's first label is non-empty
   * and starts with `@`, and every `@` after the domain's first `.`. So `ab@@x.com` masks to
   * `a***@@***.com`, with two.
   */
  lemma AtCount(s: string)
    requires '@' in s && MaskAddress(s).Ok?
    ensures var domain := s[IndexOf(s, '@') + 1..];
      Count(MaskAddress(s).value, '@')
      == 1 + (if LabelInitial(domain) == "@" then 1 else 0) + Count(AfterFirst(domain, '.'), '@')
  {
    MaskAddressShape(s);
    var i := IndexOf(s, '@');
    LocalMaskHasNoAt(s[..i]);
    MaskPartsAtCount(MaskLocal(s[..i]).value, s[i + 1..]);
  }

  /** The local mask contributes no `@`, the separator one, the domain mask its own. */
  lemma MaskPartsAtCount(nameMask: string, domain: string)
    requires '@' !in nameMask
    ensures Count(nameMask + "@" + DomainMask(domain), '@')
            == 1 + (if LabelInitial(domain) == "@" then 1 else 0) + Count(AfterFirst(domain, '.'), '@')
  {
    CountAbsent(nameMask, '@');
    assert Count("@", '@') == 1;
    CountConcat(nameMask, "@", '@');
    CountConcat(nameMask + "@", DomainMask(domain), '@');
    DomainMaskAtCount(domain);
  }

  /** The `@` of the domain mask: the kept initial's, and those after the first `.`. */
  lemma DomainMaskAtCount(domain: string)
    ensures Count(DomainMask(domain), '@')
            == (if LabelInitial(domain) == "@" then 1 else 0) + Count(AfterFirst(domain, '.'), '@')
  {
    var kept := LabelInitial(domain);
    assert Count(kept, '@') == if kept == "@" then 1 else 0 by {
      if kept != "" {
        CountSingle(domain[0], '@');
      }
    }
    MaskCount(kept, "***", ".", AfterFirst(domain, '.'), '@');
  }

  lemma CountSingle(x: char, c: char)
    ensures Count([x], c) == if x == c then 1 else 0
  {
    assert [x][1..] == [];
  }

  /** Literal pieces without `c` add nothing to the count of `c`. */
  lemma MaskCount(kept: string, stars: string, dot: string, rest: string, c: char)
    requires c !in stars && c !in dot
    ensures Count(kept + stars + (dot + rest), c) == Count(kept, c) + Count(rest, c)
  {
    CountAbsent(stars, c);
    CountAbsent(dot, c);
    CountConcat(kept, stars, c);
    CountConcat(dot, rest, c);
    CountConcat(kept + stars, dot + rest, c);
  }

  /** An address with exactly one `@` is masked to a text with exactly one `@`. */
  lemma SingleAtStaysSingle(s: string)
    requires Count(s, '@') == 1
    ensures MaskAddress(s).Ok? ==> Count(MaskAddress(s).value, '@') == 1
  {
    OnlyAt(s);
    if MaskAddress(s).Ok? {
      var domain := s[IndexOf(s, '@') + 1..];
      DomainWithoutAt(domain);
      AtCount(s);
    }
  }

  /** With exactly one `@`, the text after it has none. */
  lemma OnlyAt(s: string)
    requires Count(s, '@') == 1
    ensures '@' in s && '@' !in s[IndexOf(s, '@') + 1..]
  {
    CountAbsent(s, '@');
    var i := IndexOf(s, '@');
    var name, domain := s[..i], s[i + 1..];
    assert s == name + ("@" + domain);
    CountConcat(name, "@" + domain, '@');
    CountConcat("@", domain, '@');
    CountAbsent(domain, '@');
  }

  /** A domain without `@` adds no `@` to its mask. */
  lemma DomainWithoutAt(domain: string)
    requires '@' !in domain
    ensures LabelInitial(domain) != "@" && Count(AfterFirst(domain, '.'), '@') == 0
  {
    assert '@' !in AfterFirst(domain, '.');
    CountAbsent(AfterFirst(domain, '.'), '@');
  }

  /** Masking strips first, so an already stripped address masks the same way. */
  lemma MaskStripped(email: string)
    ensures MaskEmail(Strip(email)) == MaskEmail(email)
  {
    StripStripped(email);
  }
}

=== FILE: scrape.dfy ===
/**
 * `extract_remaining_and_expire` over the page's body text: the remaining quota from the first
 * `剩余流量 <number> <unit>` and the expiry stamp from the first `到期` line carrying a
 * timestamp, falling back to the greatest timestamp of the whole body.
 */
module Scrape {
  import opened Text
  import opened Clock
  import opened Wrappers

  // ---------------------------------------------------------------- str.splitlines()

  /** The characters at which Python's `str.splitlines()` breaks a text. */
  predicate IsLineBoundary(c: char) {
    c == '\n' || c == '\r' || c == '\U{0b}' || c == '\U{0c}' || c == '\U{1c}' || c == '\U{1d}'
    || c == '\U{1e}' || c == '\U{85}' || c == '\U{2028}' || c == '\U{2029}'
  }

  function BoundaryIndex(s: string): (k: nat)
    ensures k <= |s|
    ensures k < |s| ==> IsLineBoundary(s[k])
    ensures forall j :: 0 <= j < k ==> !IsLineBoundary(s[j])
    decreases |s|
  {
    if s == [] then 0
    else if IsLineBoundary(s[0]) then 0
    else 1 + BoundaryIndex(s[1..])
  }

  /** `s.splitlines()`: the pieces between boundaries, with no empty piece after a final one. */
  function SplitLines(s: string): (lines: seq<string>)
    ensures forall i, j :: 0 <= i < |lines| && 0 <= j < |lines[i]| ==> !IsLineBoundary(lines[i][j])
    decreases |s|
  {
    if s == [] then []
    else
      var k := BoundaryIndex(s);
      if k == |s| then [s]
      else
        var rest := SplitLines(s[BreakEnd(s, k)..]);
        assert forall j :: 0 <= j < k ==> !IsLineBoundary(s[..k][j]);
        [s[..k]] + rest
  }

  lemma SplitLinesUnfold(s: string)
    requires s != []
    ensures var k := BoundaryIndex(s);
      SplitLines(s) == if k == |s| then [s] else [s[..k]] + SplitLines(s[BreakEnd(s, k)..])
  {
  }

  predicate NoBoundary(line: string) {
    forall j :: 0 <= j < |line| ==> !IsLineBoundary(line[j])
  }

  /**
   * `lines` splits `s` the way `str.splitlines()` is documented to: `s` is `lines[0] + e0 +
   * lines[1] + e1 + ...`, where no line holds a boundary, each end `e` is one boundary
   * character, or `\r\n` taken as one end, and only the last end may be missing, in which case
   * the last line is not empty.
   */
  ghost predicate LinesOf(s: string, lines: seq<string>)
    decreases |lines|
  {
    if lines == [] then s == []
    else
      var line := lines[0];
      StartsWith(s, line) && NoBoundary(line)
      && if |line| == |s| then line != [] && |lines| == 1
         else IsLineBoundary(s[|line|]) && LinesOf(s[BreakEnd(s, |line|)..], lines[1..])
  }

  /** Joining the lines with the ends they were split at gives back the text. */
  lemma {:induction false} SplitLinesRoundTrip(s: string)
    ensures LinesOf(s, SplitLines(s))
    decreases |s|
  {
    if s != [] {
      SplitLinesUnfold(s);
      var k := BoundaryIndex(s);
      assert s[..k][..k] == s[..k];
      assert NoBoundary(s[..k]);
      if k < |s| {
        var next := BreakEnd(s, k);
        SplitLinesRoundTrip(s[next..]);
        ConsTail(s[..k], SplitLines(s[next..]));
      } else {
        assert s[..k] == s;
      }
    }
  }

  /** A text splits into lines in one way only. */
  lemma {:induction false} LinesOfUnique(s: string, a: seq<string>, b: seq<string>)
    requires LinesOf(s, a) && LinesOf(s, b)
    ensures a == b
    decreases |a|
  {
    if a != [] && b != [] {
      var la, lb := a[0], b[0];
      FirstLineEnds(s, la, lb);
      FirstLineEnds(s, lb, la);
      assert la == s[..|la|] == lb;
      if |la| < |s| {
        LinesOfUnique(s[BreakEnd(s, |la|)..], a[1..], b[1..]);
        assert a == [la] + a[1..] && b == [lb] + b[1..];
      }
    }
  }

  /** A first line holds no boundary, so it cannot run past one where another first line stops. */
  lemma FirstLineEnds(s: string, line: string, other: string)
    requires StartsWith(s, line) && NoBoundary(line)
    requires StartsWith(s, other) && (|other| == |s| || IsLineBoundary(s[|other|]))
    ensures |line| <= |other|
  {
    forall j | 0 <= j < |line| ensures !IsLineBoundary(s[j]) {
      assert s[j] == s[..|line|][j];
    }
  }

  /** `str.splitlines()` returns exactly the lines that split the text. */
  lemma SplitLinesCharacterized(s: string, lines: seq<string>)
    ensures LinesOf(s, lines) <==> lines == SplitLines(s)
  {
    SplitLinesRoundTrip(s);
    if LinesOf(s, lines) {
      LinesOfUnique(s, lines, SplitLines(s));
    }
  }

  /** Every line is a piece of the text it was split from. */
  lemma {:induction false} LineOccurs(s: string, i: int)
    requires 0 <= i < |SplitLines(s)|
    ensures exists p :: OccursAt(s, SplitLines(s)[i], p)
    decreases |s|
  {
    SplitLinesUnfold(s);
    var k := BoundaryIndex(s);
    if k == |s| || i == 0 {
      assert OccursAt(s, SplitLines(s)[i], 0) by {
        assert SplitLines(s)[i] == s[0..k];
      }
    } else {
      var next := BreakEnd(s, k);
      var rest := s[next..];
      assert SplitLines(s)[i] == SplitLines(rest)[i - 1];
      LineOccurs(rest, i - 1);
      var p :| OccursAt(rest, SplitLines(rest)[i - 1], p);
      OccursShift(s, next, SplitLines(rest)[i - 1], p);
    }
  }

  lemma OccursShift(s: string, next: nat, w: string, p: int)
    requires next <= |s| && OccursAt(s[next..], w, p)
    ensures OccursAt(s, w, next + p)
  {
    assert s[next..][p..p + |w|] == s[next + p..next + p + |w|];
  }

  // ---------------------------------------------------------------- the timestamp pattern

  /** `\d{4}-\d{2}-\d{2} \d{2}:\d{2}:\d{2}` matches at `p`. */
  predicate StampAt(s: string, p: int) {
    0 <= p && p + 19 <= |s| && IsTimestamp(s[p..p + 19])
  }

  /** `t` is the text of some match of the timestamp pattern in `s`. */
  ghost predicate StampOf(s: string, t: string) {
    exists p :: StampAt(s, p) && s[p..p + 19] == t
  }

  /** `re.search` of the timestamp pattern from `p` on: the leftmost match position. */
  function SearchStamp(s: string, p: nat): (r: Option<nat>)
    requires p <= |s|
    ensures r.Some? ==> p <= r.value && StampAt(s, r.value)
    ensures r.Some? ==> forall q :: p <= q < r.value ==> !StampAt(s, q)
    ensures r.None? ==> forall q :: p <= q ==> !StampAt(s, q)
    decreases |s| - p
  {
    if p + 19 > |s| then None
    else if IsTimestamp(s[p..p + 19]) then Some(p)
    else SearchStamp(s, p + 1)
  }

  /** `re.findall` of the timestamp pattern from `p` on: matches left to right, none overlapping. */
  function FindStamps(s: string, p: nat): (ts: seq<string>)
    requires p <= |s|
    ensures forall i :: 0 <= i < |ts| ==> StampOf(s, ts[i])
    ensures |ts| == 0 <==> forall q :: p <= q ==> !StampAt(s, q)
    decreases |s| - p
  {
    match SearchStamp(s, p)
    case None => []
    case Some(q) => [s[q..q + 19]] + FindStamps(s, q + 19)
  }

  /**
   * Nothing is skipped: every match of the pattern from `p` on starts inside one of the listed
   * matches (itself, or one that overlaps it from the left).
   */
  lemma {:induction false} FindStampsCover(s: string, p: nat, q: int)
    requires p <= q && StampAt(s, q)
    ensures exists r :: StampAt(s, r) && r <= q < r + 19 && s[r..r + 19] in FindStamps(s, p)
    decreases |s| - p
  {
    var r := SearchStamp(s, p).value;
    var rest := FindStamps(s, r + 19);
    assert FindStamps(s, p) == [s[r..r + 19]] + rest;
    if r + 19 <= q {
      FindStampsCover(s, r + 19, q);
      var r' :| StampAt(s, r') && r' <= q < r' + 19 && s[r'..r' + 19] in rest;
      assert s[r'..r' + 19] in FindStamps(s, p);
    }
  }

  /**
   * `qs` are the positions `re.findall` reports from `p` on: each is a match at or after `p`, no
   * two overlap, and every match from `p` on starts inside one of them.
   */
  ghost predicate MatchCover(s: string, p: int, qs: seq<int>) {
    (forall i :: 0 <= i < |qs| ==> ListedMatch(s, p, qs, i))
    && (forall i, j :: 0 <= i < j < |qs| ==> qs[i] + 19 <= qs[j])
    && (forall q :: p <= q && StampAt(s, q) ==> Covered(qs, q))
  }

  /** The `i`-th position is a match at or after `p`. */
  ghost predicate ListedMatch(s: string, p: int, qs: seq<int>, i: int) {
    0 <= i < |qs| && p <= qs[i] && StampAt(s, qs[i])
  }

  /** Position `q` lies inside the match at one of the positions `qs`. */
  ghost predicate Covered(qs: seq<int>, q: int) {
    exists i :: 0 <= i < |qs| && qs[i] <= q < qs[i] + 19
  }

  lemma ListedAt(s: string, p: int, qs: seq<int>, i: int)
    requires MatchCover(s, p, qs) && 0 <= i < |qs|
    ensures p <= qs[i] && StampAt(s, qs[i])
  {
    assert ListedMatch(s, p, qs, i);
  }

  /** The positions of the matches `FindStamps` lists. */
  ghost function StampPositions(s: string, p: nat): (qs: seq<int>)
    requires p <= |s|
    ensures forall i :: 0 <= i < |qs| ==> p <= qs[i] && qs[i] + 19 <= |s|
    decreases |s| - p
  {
    match SearchStamp(s, p)
    case None => []
    case Some(q) => [q] + StampPositions(s, q + 19)
  }

  /** `FindStamps` lists the texts at its positions. */
  lemma {:induction false} FindStampsPositions(s: string, p: nat)
    requires p <= |s|
    ensures var qs := StampPositions(s, p);
      |FindStamps(s, p)| == |qs|
      && forall i :: 0 <= i < |qs| ==> FindStamps(s, p)[i] == s[qs[i]..qs[i] + 19]
    decreases |s| - p
  {
    if SearchStamp(s, p).Some? {
      var q := SearchStamp(s, p).value;
      FindStampsPositions(s, q + 19);
      assert StampPositions(s, p) == [q] + StampPositions(s, q + 19);
      assert FindStamps(s, p) == [s[q..q + 19]] + FindStamps(s, q + 19);
    }
  }

  /** Those positions are matches that do not overlap and leave no match from `p` on uncovered. */
  lemma {:induction false} PositionsCover(s: string, p: nat)
    requires p <= |s|
    ensures MatchCover(s, p, StampPositions(s, p))
    decreases |s| - p
  {
    var qs := StampPositions(s, p);
    if SearchStamp(s, p).Some? {
      var q := SearchStamp(s, p).value;
      var rest := StampPositions(s, q + 19);
      PositionsCover(s, q + 19);
      assert qs == [q] + rest;
      CoverCons(s, p, q, rest);
    }
  }

  /** The leftmost match from `p`, followed by a cover of the text after it, covers from `p`. */
  lemma CoverCons(s: string, p: nat, q: int, rest: seq<int>)
    requires p <= |s| && SearchStamp(s, p) == Some(q) && MatchCover(s, q + 19, rest)
    ensures MatchCover(s, p, [q] + rest)
  {
    var qs := [q] + rest;
    forall i | 0 <= i < |qs| ensures ListedMatch(s, p, qs, i) {
      if i > 0 {
        assert qs[i] == rest[i - 1];
        ListedAt(s, q + 19, rest, i - 1);
      }
    }
    forall i, j | 0 <= i < j < |qs| ensures qs[i] + 19 <= qs[j] {
      assert qs[j] == rest[j - 1];
      ListedAt(s, q + 19, rest, j - 1);
      if i > 0 {
        assert qs[i] == rest[i - 1];
      }
    }
    forall r | p <= r && StampAt(s, r) ensures Covered(qs, r) {
      if q + 19 <= r {
        assert Covered(rest, r);
        var i :| 0 <= i < |rest| && rest[i] <= r < rest[i] + 19;
        assert qs[i + 1] == rest[i];
      } else {
        assert qs[0] <= r < qs[0] + 19;
      }
    }
  }

  /** A cover's first position is the leftmost match. */
  lemma CoverHead(s: string, p: nat, qs: seq<int>)
    requires p <= |s| && MatchCover(s, p, qs) && qs != []
    ensures SearchStamp(s, p) == Some(qs[0])
  {
    ListedAt(s, p, qs, 0);
    var m := SearchStamp(s, p).value;
    assert Covered(qs, m);
    var i :| 0 <= i < |qs| && qs[i] <= m < qs[i] + 19;
    assert i == 0;
  }

  /** What a cover leaves after its first position covers the text after that match. */
  lemma CoverTail(s: string, p: nat, qs: seq<int>)
    requires MatchCover(s, p, qs) && qs != []
    ensures MatchCover(s, qs[0] + 19, qs[1..])
  {
    var tail := qs[1..];
    ListedAt(s, p, qs, 0);
    var after := qs[0] + 19;
    forall i | 0 <= i < |tail| ensures ListedMatch(s, after, tail, i) {
      assert tail[i] == qs[i + 1];
      ListedAt(s, p, qs, i + 1);
    }
    forall r | qs[0] + 19 <= r && StampAt(s, r) ensures Covered(tail, r) {
      assert Covered(qs, r);
      var i :| 0 <= i < |qs| && qs[i] <= r < qs[i] + 19;
      assert i > 0;
      assert tail[i - 1] == qs[i];
    }
  }

  /** The match positions `re.findall` reports are determined by the text. */
  lemma {:induction false} MatchCoverUnique(s: string, p: nat, a: seq<int>, b: seq<int>)
    requires p <= |s| && MatchCover(s, p, a) && MatchCover(s, p, b)
    ensures a == b
    decreases |a|
  {
    CoverEmpty(s, p, a);
    CoverEmpty(s, p, b);
    if a != [] && b != [] {
      CoverHead(s, p, a);
      CoverHead(s, p, b);
      CoverTail(s, p, a);
      CoverTail(s, p, b);
      if a[0] + 19 <= |s| {
        MatchCoverUnique(s, a[0] + 19, a[1..], b[1..]);
      }
      assert a == [a[0]] + a[1..] && b == [b[0]] + b[1..];
    }
  }

  lemma CoverEmpty(s: string, p: nat, qs: seq<int>)
    requires MatchCover(s, p, qs)
    ensures qs == [] <==> forall q :: p <= q ==> !StampAt(s, q)
  {
    if qs != [] {
      ListedAt(s, p, qs, 0);
    }
  }

  /**
   * `re.findall` stated without its scan: the list holds the texts at the one set of positions
   * that are matches, do not overlap, and leave no match from `p` on uncovered.
   */
  lemma FindStampsCharacterized(s: string, p: nat, qs: seq<int>)
    requires p <= |s| && MatchCover(s, p, qs)
    ensures forall i :: 0 <= i < |qs| ==> 0 <= qs[i] && qs[i] + 19 <= |s|
    ensures |FindStamps(s, p)| == |qs|
    ensures forall i :: 0 <= i < |qs| ==> FindStamps(s, p)[i] == s[qs[i]..qs[i] + 19]
  {
    forall i | 0 <= i < |qs| ensures 0 <= qs[i] && qs[i] + 19 <= |s| {
      ListedAt(s, p, qs, i);
    }
    FindStampsPositions(s, p);
    PositionsCover(s, p);
    MatchCoverUnique(s, p, qs, StampPositions(s, p));
  }

  /**
   * `re.findall` skips a match that overlaps an earlier one, even a greater one: in this body the
   * match at 17 is greater than the only match listed, the one at 0.
   */
  lemma FindallSkipsOverlap()
    ensures var body := "2024-01-01 00:00:59" + "99-12-31 23:59:59";
      StampAt(body, 17) && FindStamps(body, 0) == [body[..19]]
      && LexLe(body[..19], body[17..]) && body[..19] != body[17..]
  {
    var body := "2024-01-01 00:00:59" + "99-12-31 23:59:59";
    OverlapSlices();
    OverlapStamps();
    assert body[0..0 + 19] == body[..19] && body[17..17 + 19] == body[17..];
    assert ListedMatch(body, 0, [0], 0);
    forall q | 0 <= q && StampAt(body, q) ensures Covered([0], q) {
      assert [0][0] <= q < [0][0] + 19;
    }
    FindStampsCharacterized(body, 0, [0]);
  }

  /** The two overlapping windows of the body of `FindallSkipsOverlap`. */
  lemma OverlapSlices()
    ensures var body := "2024-01-01 00:00:59" + "99-12-31 23:59:59";
      |body| == 36 && body[..19] == "2024-01-01 00:00:59" && body[17..] == "5999-12-31 23:59:59"
  {
    var first := "2024-01-01 00:00:59";
    var rest := "99-12-31 23:59:59";
    SliceConcat(first, rest, 17);
    OverlapJoin(first[17..], rest);
  }

  /** The last two digits of the first window start the second one. */
  lemma OverlapJoin(tail: string, rest: string)
    requires tail == "2024-01-01 00:00:59"[17..] && rest == "99-12-31 23:59:59"
    ensures tail + rest == "5999-12-31 23:59:59"
  {
    assert tail == "59";
  }

  /** Slicing a concatenation inside its first part, stated over plain variables. */
  lemma SliceConcat(a: string, b: string, k: nat)
    requires k <= |a|
    ensures (a + b)[..|a|] == a && (a + b)[k..] == a[k..] + b
  {
  }

  /** Both windows are timestamps, the second the greater one. */
  lemma OverlapStamps()
    ensures IsTimestamp("2024-01-01 00:00:59") && IsTimestamp("5999-12-31 23:59:59")
    ensures LexLe("2024-01-01 00:00:59", "5999-12-31 23:59:59")
    ensures "2024-01-01 00:00:59" != "5999-12-31 23:59:59"
  {
    assert "2024-01-01 00:00:59"[0] != "5999-12-31 23:59:59"[0];
  }

  /** Python's `max` of a non-empty list of strings: the first greatest in code-point order. */
  function MaxString(xs: seq<string>): (m: string)
    requires |xs| > 0
    ensures m in xs
    ensures forall i :: 0 <= i < |xs| ==> LexLe(xs[i], m)
  {
    if |xs| == 1 then
      LexLeTotal(xs[0], xs[0]);
      xs[0]
    else
      var m := MaxString(xs[..|xs| - 1]);
      var x := xs[|xs| - 1];
      var r := if LexLe(m, x) && m != x then x else m;
      LexLeTotal(m, x);
      LexLeTotal(x, x);
      assert forall i :: 0 <= i < |xs| - 1 ==> xs[i] == xs[..|xs| - 1][i];
      forall i | 0 <= i < |xs| - 1 && r == x ensures LexLe(xs[i], r) {
        LexLeTransitive(xs[i], m, x);
      }
      r
  }

  /** An item no other item exceeds is the `max`: Python's string order has no ties. */
  lemma MaxStringUnique(xs: seq<string>, m: string)
    requires m in xs && forall i :: 0 <= i < |xs| ==> LexLe(xs[i], m)
    ensures MaxString(xs) == m
  {
    var k :| 0 <= k < |xs| && xs[k] == MaxString(xs);
    LexLeAntisymmetric(m, MaxString(xs));
  }

  // ---------------------------------------------------------------- the quota pattern

  /** The text `剩余流量` ("remaining traffic") that introduces the quota. */
  const RemainingKey := "剩余流量"

  /** `[0-9.]`. */
  predicate IsNumberChar(c: char) {
    '0' <= c <= '9' || c == '.'
  }

  predicate IsUnit(u: string) {
    u == "GB" || u == "MB" || u == "TB"
  }

  /** The end of the run of white space starting at `p` (`\s*`, greedy). */
  function SpaceRunEnd(s: string, p: nat): (e: nat)
    requires p <= |s|
    ensures p <= e <= |s|
    ensures forall j :: p <= j < e ==> IsSpace(s[j])
    ensures e < |s| ==> !IsSpace(s[e])
    decreases |s| - p
  {
    if p == |s| || !IsSpace(s[p]) then p else SpaceRunEnd(s, p + 1)
  }

  /** The end of the run of digits and dots starting at `p` (`[0-9.]+`, greedy). */
  function NumberRunEnd(s: string, p: nat): (e: nat)
    requires p <= |s|
    ensures p <= e <= |s|
    ensures forall j :: p <= j < e ==> IsNumberChar(s[j])
    ensures e < |s| ==> !IsNumberChar(s[e])
    decreases |s| - p
  {
    if p == |s| || !IsNumberChar(s[p]) then p else NumberRunEnd(s, p + 1)
  }

  /**
   * `剩余流量\s*([0-9.]+\s*(GB|MB|TB))` matches at `p` with the number at `a..b`, the unit at
   * `c..c+2`; group 1 is `s[a..c + 2]`. This is the pattern's meaning, with no greed in it.
   */
  ghost predicate QuotaMatch(s: string, p: int, a: int, b: int, c: int) {
    0 <= p && p + |RemainingKey| <= a < b <= c && c + 2 <= |s|
    && s[p..p + |RemainingKey|] == RemainingKey
    && (forall j :: p + |RemainingKey| <= j < a ==> IsSpace(s[j]))
    && (forall j :: a <= j < b ==> IsNumberChar(s[j]))
    && (forall j :: b <= j < c ==> IsSpace(s[j]))
    && IsUnit(s[c..c + 2])
  }

  /** The group a match at `p` captures, found the way the matcher finds it: greedily. */
  function QuotaAt(s: string, p: nat): (r: Option<string>)
    requires p <= |s|
    ensures r.Some? ==> QuotaShape(r.value)
  {
    if !StartsWith(s[p..], RemainingKey) then None
    else
      var a := SpaceRunEnd(s, p + |RemainingKey|);
      var b := NumberRunEnd(s, a);
      var c := SpaceRunEnd(s, b);
      if a < b && c + 2 <= |s| && IsUnit(s[c..c + 2]) then
        assert s[a..c + 2][0] == s[a] && s[a..c + 2][c + 2 - a - 2..] == s[c..c + 2];
        Some(s[a..c + 2])
      else None
  }

  /** What group 1 of the quota pattern looks like: a digit or dot first, a unit last. */
  predicate QuotaShape(g: string) {
    |g| >= 3 && IsNumberChar(g[0]) && IsUnit(g[|g| - 2..])
  }

  /** What the greedy matcher captures is a match of the pattern. */
  lemma QuotaAtSound(s: string, p: nat)
    requires p <= |s| && QuotaAt(s, p).Some?
    ensures exists a, b, c :: QuotaMatch(s, p, a, b, c) && QuotaAt(s, p).value == s[a..c + 2]
  {
    var a := SpaceRunEnd(s, p + |RemainingKey|);
    var b := NumberRunEnd(s, a);
    var c := SpaceRunEnd(s, b);
    assert s[p..][..|RemainingKey|] == s[p..p + |RemainingKey|];
    assert QuotaMatch(s, p, a, b, c);
  }

  /**
   * Every match of the pattern at `p` is the one the greedy matcher captures: the white space,
   * the digits and the unit start with different characters, so no backtracking can give
   * another split.
   */
  lemma QuotaAtComplete(s: string, p: nat, a: int, b: int, c: int)
    requires p <= |s| && QuotaMatch(s, p, a, b, c)
    ensures QuotaAt(s, p) == Some(s[a..c + 2])
  {
    var k := p + |RemainingKey|;
    assert StartsWith(s[p..], RemainingKey) by {
      assert s[p..][..|RemainingKey|] == s[p..k];
    }
    assert SpaceRunEnd(s, k) == a by {
      assert IsNumberChar(s[a]);
      RunEndsAt(s, k, a);
    }
    assert NumberRunEnd(s, a) == b by {
      assert s[c..c + 2][0] == s[c];
      NumberRunEndsAt(s, a, b);
    }
    assert SpaceRunEnd(s, b) == c by {
      assert s[c..c + 2][0] == s[c];
      RunEndsAt(s, b, c);
    }
    QuotaAtGreedy(s, p, a, b, c);
  }

  /** `QuotaAt` when the three runs end at `a`, `b` and `c` and a unit follows. */
  lemma QuotaAtGreedy(s: string, p: nat, a: nat, b: nat, c: nat)
    requires p <= |s| && StartsWith(s[p..], RemainingKey)
    requires SpaceRunEnd(s, p + |RemainingKey|) == a && NumberRunEnd(s, a) == b && SpaceRunEnd(s, b) == c
    requires a < b && c + 2 <= |s| && IsUnit(s[c..c + 2])
    ensures QuotaAt(s, p) == Some(s[a..c + 2])
  {
  }

  lemma RunEndsAt(s: string, p: nat, e: nat)
    requires p <= e < |s| && !IsSpace(s[e]) && forall j :: p <= j < e ==> IsSpace(s[j])
    ensures SpaceRunEnd(s, p) == e
  {
  }

  lemma NumberRunEndsAt(s: string, p: nat, e: nat)
    requires p <= e < |s| && !IsNumberChar(s[e]) && forall j :: p <= j < e ==> IsNumberChar(s[j])
    ensures NumberRunEnd(s, p) == e
  {
  }

  /** `re.search` of the quota pattern from `p` on: the group of the leftmost match. */
  function SearchQuota(s: string, p: nat): (r: Option<string>)
    requires p <= |s|
    ensures r.Some? ==> QuotaShape(r.value)
    decreases |s| - p
  {
    if p == |s| then None
    else match QuotaAt(s, p)
      case Some(g) => Some(g)
      case None => SearchQuota(s, p + 1)
  }

  // ---------------------------------------------------------------- the extraction

  /** The text `到期` ("expires") that marks the expiry line. */
  const DueKey := "到期"

  /** A line the scan stops at: it mentions `到期` and holds a timestamp. */
  predicate IsDueLine(line: string) {
    Contains(line, DueKey) && SearchStamp(line, 0).Some?
  }

  /** The first timestamp of a line, as `re.search(...).group(1)` gives it. */
  function LineStamp(line: string): (r: string)
    requires SearchStamp(line, 0).Some?
    ensures IsTimestamp(r)
  {
    var q := SearchStamp(line, 0).value;
    line[q..q + 19]
  }

  /** The index of the first due line, or `|lines|`. */
  function FirstDueLine(lines: seq<string>): (k: nat)
    ensures k <= |lines|
    ensures k < |lines| ==> IsDueLine(lines[k])
    ensures forall j :: 0 <= j < k ==> !IsDueLine(lines[j])
    decreases |lines|
  {
    if lines == [] then 0
    else if IsDueLine(lines[0]) then 0
    else 1 + FirstDueLine(lines[1..])
  }

  /**
   * The `remaining` that `extract_remaining_and_expire` returns: `-`, or a number followed by
   * its unit.
   */
  function RemainingOf(body: string): (r: string)
    ensures r == "-" || QuotaShape(r)
  {
    match SearchQuota(body, 0)
    case Some(g) => g
    case None => "-"
  }

  /** The `expire` that `extract_remaining_and_expire` returns: `-`, or a timestamp. */
  function ExpireOf(body: string): (r: string)
    ensures r == "-" || IsTimestamp(r)
  {
    var lines := SplitLines(body);
    var k := FirstDueLine(lines);
    if k < |lines| then LineStamp(lines[k])
    else
      var all := FindStamps(body, 0);
      if |all| == 0 then "-"
      else
        var m := MaxString(all);
        assert IsTimestamp(m) by {
          var i :| 0 <= i < |all| && all[i] == m;
          var p :| StampAt(body, p) && body[p..p + 19] == all[i];
        }
        m
  }

  /** `extract_remaining_and_expire(driver)`, given the `body` text the driver reads. */
  method ExtractRemainingAndExpire(body: string) returns (remaining: string, expire: string)
    ensures remaining == RemainingOf(body)
    ensures expire == ExpireOf(body)
  {
    remaining := "-";
    expire := "-";
    var m1 := SearchQuota(body, 0);
    if m1.Some? {
      remaining := m1.value;
    }
    var lines := SplitLines(body);
    var i := 0;
    while i < |lines|
      invariant 0 <= i <= |lines|
      invariant expire == "-"
      invariant forall j :: 0 <= j < i ==> !IsDueLine(lines[j])
    {
      if Contains(lines[i], DueKey) {
        var m2 := SearchStamp(lines[i], 0);
        if m2.Some? {
          expire := lines[i][m2.value..m2.value + 19];
          assert FirstDueLine(lines) == i;
          break;
        }
      }
      i := i + 1;
    }
    if expire == "-" {
      var allTimes := FindStamps(body, 0);
      if |allTimes| > 0 {
        expire := MaxString(allTimes);
      }
    }
  }

  // ---------------------------------------------------------------- what the results mean

  /** The leftmost position from `p` where the matcher captures, or `|s|` when there is none. */
  function QuotaPos(s: string, p: nat): (q: nat)
    requires p <= |s|
    ensures p <= q <= |s|
    ensures forall j :: p <= j < q ==> QuotaAt(s, j).None?
    ensures q < |s| ==> QuotaAt(s, q).Some?
    decreases |s| - p
  {
    if p == |s| || QuotaAt(s, p).Some? then p else QuotaPos(s, p + 1)
  }

  /** The search is the capture at the leftmost capturing position. */
  lemma {:induction false} SearchQuotaAtPos(s: string, p: nat)
    requires p <= |s|
    ensures SearchQuota(s, p) == if QuotaPos(s, p) < |s| then QuotaAt(s, QuotaPos(s, p)) else None
    decreases |s| - p
  {
    if p < |s| && QuotaAt(s, p).None? {
      SearchQuotaAtPos(s, p + 1);
    }
  }

  lemma QuotaAtEnd(s: string)
    ensures QuotaAt(s, |s|).None?
  {
    assert s[|s|..] == [];
  }

  /** The search finds nothing exactly when the matcher captures nothing from `p` on. */
  lemma SearchQuotaNone(s: string, p: nat)
    requires p <= |s|
    ensures SearchQuota(s, p).None? <==> forall q :: p <= q <= |s| ==> QuotaAt(s, q).None?
  {
    SearchQuotaAtPos(s, p);
    QuotaAtEnd(s);
  }

  /** What the search finds is captured at the leftmost position where the matcher captures. */
  lemma SearchQuotaLeftmost(s: string, p: nat)
    requires p <= |s| && SearchQuota(s, p).Some?
    ensures QuotaAt(s, QuotaPos(s, p)) == SearchQuota(s, p)
    ensures forall q :: p <= q < QuotaPos(s, p) ==> QuotaAt(s, q).None?
  {
    SearchQuotaAtPos(s, p);
  }

  /**
   * `remaining` is `-` exactly when the quota pattern matches nowhere in the body; otherwise it
   * is the number-and-unit text of a match at the leftmost position where the pattern matches.
   */
  lemma RemainingMeaning(body: string)
    ensures RemainingOf(body) == "-" <==> forall q, a, b, c :: !QuotaMatch(body, q, a, b, c)
    ensures RemainingOf(body) != "-" ==>
      exists q, a, b, c :: (QuotaMatch(body, q, a, b, c) && RemainingOf(body) == body[a..c + 2]
                            && forall q', a', b', c' :: q' < q ==> !QuotaMatch(body, q', a', b', c'))
  {
    SearchQuotaNone(body, 0);
    forall q, a, b, c | QuotaMatch(body, q, a, b, c) ensures QuotaAt(body, q) == Some(body[a..c + 2]) {
      QuotaAtComplete(body, q, a, b, c);
    }
    if SearchQuota(body, 0).Some? {
      SearchQuotaLeftmost(body, 0);
      QuotaAtSound(body, QuotaPos(body, 0));
    } else {
      forall q | 0 <= q <= |body| ensures QuotaAt(body, q).None? {
      }
    }
  }

  /** A timestamp found in one line of the body is a timestamp of the body. */
  lemma LineStampInBody(body: string, i: int)
    requires 0 <= i < |SplitLines(body)| && SearchStamp(SplitLines(body)[i], 0).Some?
    ensures StampOf(body, LineStamp(SplitLines(body)[i]))
  {
    var line := SplitLines(body)[i];
    LineOccurs(body, i);
    var p :| OccursAt(body, line, p);
    StampShift(body, line, p, SearchStamp(line, 0).value);
  }

  lemma StampShift(body: string, line: string, p: int, q: int)
    requires OccursAt(body, line, p) && StampAt(line, q)
    ensures StampAt(body, p + q) && body[p + q..p + q + 19] == line[q..q + 19]
  {
    assert forall j :: q <= j < q + 19 ==> line[j] == body[p + j];
    assert body[p + q..p + q + 19] == line[q..q + 19];
  }

  /**
   * `expire` is `-` exactly when the body holds no timestamp at all; otherwise it is one of the
   * body's timestamps.
   */
  lemma ExpireMeaning(body: string)
    ensures ExpireOf(body) == "-" <==> forall p :: !StampAt(body, p)
    ensures ExpireOf(body) != "-" ==> StampOf(body, ExpireOf(body))
  {
    var lines := SplitLines(body);
    var k := FirstDueLine(lines);
    if k < |lines| {
      LineStampInBody(body, k);
      assert |LineStamp(lines[k])| == 19;
    } else {
      var all := FindStamps(body, 0);
      if |all| > 0 {
        var m := MaxString(all);
        var i :| 0 <= i < |all| && all[i] == m;
        assert StampOf(body, all[i]);
        var p :| StampAt(body, p) && body[p..p + 19] == m;
        assert |m| == 19;
      }
    }
  }

  /** The first `到期` line with a timestamp decides `expire`; later lines do not matter. */
  lemma ExpireFromDueLine(body: string, i: int)
    requires 0 <= i < |SplitLines(body)| && IsDueLine(SplitLines(body)[i])
    requires forall j :: 0 <= j < i ==> !IsDueLine(SplitLines(body)[j])
    ensures ExpireOf(body) == LineStamp(SplitLines(body)[i])
  {
  }

  /**
   * Without such a line, `expire` is the greatest of the timestamps `re.findall` lists, in
   * code-point order.
   */
  lemma ExpireFallback(body: string)
    requires forall j :: 0 <= j < |SplitLines(body)| ==> !IsDueLine(SplitLines(body)[j])
    requires exists p :: StampAt(body, p)
    ensures var all := FindStamps(body, 0);
      ExpireOf(body) in all && forall i :: 0 <= i < |all| ==> LexLe(all[i], ExpireOf(body))
  {
    FallbackIsMax(body);
  }

  /**
   * Without such a line, every timestamp of the body, listed or not, lies inside a listed one
   * that is no greater than `expire`.
   */
  lemma ExpireFallbackCovers(body: string)
    requires forall j :: 0 <= j < |SplitLines(body)| ==> !IsDueLine(SplitLines(body)[j])
    requires exists p :: StampAt(body, p)
    ensures forall q :: StampAt(body, q) ==>
      exists r :: StampAt(body, r) && r <= q < r + 19 && body[r..r + 19] in FindStamps(body, 0)
                  && LexLe(body[r..r + 19], ExpireOf(body))
  {
    FallbackIsMax(body);
    CoveredBelow(body, ExpireOf(body));
  }

  /** Without a due line, `expire` is the `max` of what `re.findall` lists, and that list is not empty. */
  lemma FallbackIsMax(body: string)
    requires forall j :: 0 <= j < |SplitLines(body)| ==> !IsDueLine(SplitLines(body)[j])
    requires exists p :: StampAt(body, p)
    ensures |FindStamps(body, 0)| > 0 && ExpireOf(body) == MaxString(FindStamps(body, 0))
  {
    var lines := SplitLines(body);
    assert FirstDueLine(lines) == |lines|;
  }

  /** A bound on every listed timestamp bounds a listed timestamp around each match. */
  lemma CoveredBelow(body: string, e: string)
    requires forall i :: 0 <= i < |FindStamps(body, 0)| ==> LexLe(FindStamps(body, 0)[i], e)
    ensures forall q :: StampAt(body, q) ==>
      exists r :: StampAt(body, r) && r <= q < r + 19 && body[r..r + 19] in FindStamps(body, 0)
                  && LexLe(body[r..r + 19], e)
  {
    var all := FindStamps(body, 0);
    forall q | StampAt(body, q)
      ensures exists r :: StampAt(body, r) && r <= q < r + 19 && body[r..r + 19] in all
                          && LexLe(body[r..r + 19], e)
    {
      FindStampsCover(body, 0, q);
      var r :| StampAt(body, r) && r <= q < r + 19 && body[r..r + 19] in all;
      var i :| 0 <= i < |all| && all[i] == body[r..r + 19];
    }
  }
}

=== FILE: text.dfy ===
/** The few Python `str` operations the core relies on, over `string` (code points). */
module Text {

  /** Python's `str.isspace()`: the code points that `str.strip()` removes and `\s` matches. */
  predicate IsSpace(c: char) {
    c == ' ' || ('\t' <= c <= '\r') || ('\U{1c}' <= c <= '\U{1f}') || c == '\U{85}' || c == '\U{a0}'
    || c == '\U{1680}' || ('\U{2000}' <= c <= '\U{200a}') || c == '\U{2028}' || c == '\U{2029}'
    || c == '\U{202f}' || c == '\U{205f}' || c == '\U{3000}'
  }

  predicate AllSpace(t: string) {
    forall j :: 0 <= j < |t| ==> IsSpace(t[j])
  }

  /** Where the line end found at `k` stops: after `\r\n` as one end, or after one character. */
  function BreakEnd(text: string, k: nat): (next: nat)
    requires k < |text|
    ensures k < next <= |text|
  {
    if text[k] == '\r' && k + 1 < |text| && text[k + 1] == '\n' then k + 2 else k + 1
  }

  /** The index of the first `c` in `s`, or `|s|`; `c in s` is `IndexOf(s, c) < |s|`. */
  function IndexOf(s: string, c: char): (k: nat)
    ensures k <= |s|
    ensures k < |s| ==> s[k] == c
    ensures forall j :: 0 <= j < k ==> s[j] != c
    decreases |s|
  {
    if s == [] then 0
    else if s[0] == c then 0
    else 1 + IndexOf(s[1..], c)
  }

  /** The number of white-space characters at the start of `s`. */
  function LeadingSpaceEnd(s: string): (k: nat)
    ensures k <= |s|
    ensures AllSpace(s[..k])
    ensures k < |s| ==> !IsSpace(s[k])
    decreases |s|
  {
    if s == [] then 0
    else if IsSpace(s[0]) then 1 + LeadingSpaceEnd(s[1..])
    else 0
  }

  /** The length of `s` once its trailing white space is removed. */
  function TrailingSpaceStart(s: string): (k: nat)
    ensures k <= |s|
    ensures AllSpace(s[k..])
    ensures k > 0 ==> !IsSpace(s[k - 1])
    decreases |s|
  {
    if s == [] then 0
    else if IsSpace(s[|s| - 1]) then TrailingSpaceStart(s[..|s| - 1])
    else |s|
  }

  /** Python's `str.strip()` with no argument. */
  function Strip(s: string): (r: string)
    ensures r == [] || (!IsSpace(r[0]) && !IsSpace(r[|r| - 1]))
    ensures exists b :: OccursAt(s, r, b) && AllSpace(s[..b]) && AllSpace(s[b + |r|..])
  {
    var e := TrailingSpaceStart(s);
    var b := LeadingSpaceEnd(s[..e]);
    assert s[..e][..b] == s[..b];
    assert OccursAt(s, s[b..e], b);
    s[b..e]
  }

  /** Stripping is idempotent, so `strip` before any other step can be taken as given. */
  lemma StripStripped(s: string)
    ensures Strip(Strip(s)) == Strip(s)
  {
    var r := Strip(s);
    var r' := Strip(r);
    var b :| OccursAt(r, r', b) && AllSpace(r[..b]) && AllSpace(r[b + |r'|..]);
    assert r' == r[b..b + |r'|];
  }

  /** `w` occurs in `s` starting at index `i`. */
  ghost predicate OccursAt(s: string, w: string, i: int) {
    0 <= i && i + |w| <= |s| && s[i..i + |w|] == w
  }

  predicate StartsWith(s: string, prefix: string) {
    |prefix| <= |s| && s[..|prefix|] == prefix
  }

  /** Python's `w in s` on strings, as the scan a substring search performs. */
  function Contains(s: string, w: string): bool
    decreases |s|
  {
    if |w| > |s| then false
    else if s[..|w|] == w then true
    else Contains(s[1..], w)
  }

  /** The scan finds `w` exactly when `w` occurs somewhere in `s`. */
  lemma {:induction false} ContainsIff(s: string, w: string)
    ensures Contains(s, w) <==> exists i :: OccursAt(s, w, i)
    decreases |s|
  {
    if |w| > |s| {
    } else if s[..|w|] == w {
      assert OccursAt(s, w, 0);
    } else {
      ContainsIff(s[1..], w);
      if Contains(s[1..], w) {
        var i :| OccursAt(s[1..], w, i);
        assert s[1..][i..i + |w|] == s[i + 1..i + 1 + |w|];
        assert OccursAt(s, w, i + 1);
      }
      if i :| OccursAt(s, w, i) {
        assert i != 0;
        assert s[1..][i - 1..i - 1 + |w|] == s[i..i + |w|];
        assert OccursAt(s[1..], w, i - 1);
      }
    }
  }

  /** A substring of a part is a substring of the whole. */
  lemma ContainsInfix(a: string, x: string, b: string, w: string)
    requires Contains(x, w)
    ensures Contains(a + x + b, w)
  {
    ContainsIff(x, w);
    var i :| OccursAt(x, w, i);
    assert (a + x + b)[|a| + i..|a| + i + |w|] == x[i..i + |w|];
    assert OccursAt(a + x + b, w, |a| + i);
    ContainsIff(a + x + b, w);
  }

  lemma OccurrenceCovers(s: string, w: string, i: int, q: int)
    requires OccursAt(s, w, i) && i <= q < i + |w|
    ensures s[q] == w[q - i]
  {
    assert s[i..i + |w|][q - i] == s[q];
  }

  /** An occurrence of `w` cannot cross glue `g` none of whose characters occurs in `w`. */
  lemma ContainsAcrossGlue(a: string, g: string, b: string, w: string)
    requires |g| > 0 && |w| > 0
    requires forall j, k :: 0 <= j < |g| && 0 <= k < |w| ==> g[j] != w[k]
    requires Contains(a + g + b, w)
    ensures Contains(a, w) || Contains(b, w)
  {
    ContainsIff(a + g + b, w);
    var i :| OccursAt(a + g + b, w, i);
    GlueAvoided(a, g, b, w, i);
    if i + |w| <= |a| {
      OccursLeft(a, g, b, w, i);
      ContainsIff(a, w);
    } else {
      OccursRight(a, g, b, w, i);
      ContainsIff(b, w);
    }
  }

  lemma GlueAvoided(a: string, g: string, b: string, w: string, i: int)
    requires |g| > 0 && |w| > 0 && forall j, k :: 0 <= j < |g| && 0 <= k < |w| ==> g[j] != w[k]
    requires OccursAt(a + g + b, w, i)
    ensures i + |w| <= |a| || i >= |a| + |g|
  {
    if i + |w| > |a| && i < |a| + |g| {
      // the glue character at q would have to be a character of w
      var q := if i >= |a| then i else |a|;
      OccurrenceCovers(a + g + b, w, i, q);
      GlueAt(a, g, b, q);
    }
  }

  lemma OccursLeft(a: string, g: string, b: string, w: string, i: int)
    requires OccursAt(a + g + b, w, i) && i + |w| <= |a|
    ensures OccursAt(a, w, i)
  {
    assert (a + g + b)[i..i + |w|] == a[i..i + |w|];
  }

  lemma OccursRight(a: string, g: string, b: string, w: string, i: int)
    requires OccursAt(a + g + b, w, i) && i >= |a| + |g|
    ensures OccursAt(b, w, i - |a| - |g|)
  {
    var k := i - |a| - |g|;
    assert (a + g + b)[i..i + |w|] == b[k..k + |w|];
  }

  lemma GlueAt(a: string, g: string, b: string, q: int)
    requires |a| <= q < |a| + |g|
    ensures (a + g + b)[q] == g[q - |a|]
  {
  }

  /** Python's `a <= b` on `str`: lexicographic order of code points. */
  predicate LexLe(a: string, b: string)
    decreases |a|
  {
    |a| == 0 || (|b| > 0 && (a[0] < b[0] || (a[0] == b[0] && LexLe(a[1..], b[1..]))))
  }

  lemma {:induction false} LexLeTotal(a: string, b: string)
    ensures LexLe(a, b) || LexLe(b, a)
    decreases |a|
  {
    if |a| > 0 && |b| > 0 && a[0] == b[0] {
      LexLeTotal(a[1..], b[1..]);
    }
  }

  lemma {:induction false} LexLeTransitive(a: string, b: string, c: string)
    requires LexLe(a, b) && LexLe(b, c)
    ensures LexLe(a, c)
    decreases |a|
  {
    if |a| > 0 && a[0] == b[0] && b[0] == c[0] {
      LexLeTransitive(a[1..], b[1..], c[1..]);
    }
  }

  lemma {:induction false} LexLeAntisymmetric(a: string, b: string)
    requires LexLe(a, b) && LexLe(b, a)
    ensures a == b
    decreases |a|
  {
    if |a| > 0 {
      LexLeAntisymmetric(a[1..], b[1..]);
      assert a == [a[0]] + a[1..] && b == [b[0]] + b[1..];
    }
  }

  /** Python's `s.split(c)` for a one-character separator `c`. */
  function SplitOn(s: string, c: char): (parts: seq<string>)
    ensures |parts| >= 1
    decreases |s|
  {
    var k := IndexOf(s, c);
    if k == |s| then [s] else [s[..k]] + SplitOn(s[k + 1..], c)
  }

  /** Python's `c.join(parts)`. */
  function JoinWith(parts: seq<string>, c: char): string
  {
    if |parts| == 0 then ""
    else if |parts| == 1 then parts[0]
    else parts[0] + [c] + JoinWith(parts[1..], c)
  }

  lemma JoinCons(x: string, rest: seq<string>, c: char)
    requires |rest| >= 1
    ensures JoinWith([x] + rest, c) == x + [c] + JoinWith(rest, c)
  {
    assert ([x] + rest)[0] == x && ([x] + rest)[1..] == rest;
  }

  /** Joining the pieces of a split restores the text. */
  lemma {:induction false} JoinSplit(s: string, c: char)
    ensures JoinWith(SplitOn(s, c), c) == s
    decreases |s|
  {
    var k := IndexOf(s, c);
    if k < |s| {
      var rest := SplitOn(s[k + 1..], c);
      assert SplitOn(s, c) == [s[..k]] + rest;
      JoinCons(s[..k], rest, c);
      JoinSplit(s[k + 1..], c);
      assert s == s[..k] + [c] + s[k + 1..];
    }
  }

  /** The text after the first `c` in `s`, or nothing when `s` has no `c`. */
  function AfterFirst(s: string, c: char): string {
    var k := IndexOf(s, c);
    if k < |s| then s[k + 1..] else ""
  }

  /** `c.join(s.split(c)[1:])` is the text after the first `c`. */
  lemma SplitTail(s: string, c: char)
    ensures JoinWith(SplitOn(s, c)[1..], c) == AfterFirst(s, c)
  {
    if IndexOf(s, c) < |s| {
      SplitTailFound(s, c);
    } else {
      SplitTailMissing(s, c);
    }
  }

  lemma SplitTailFound(s: string, c: char)
    requires IndexOf(s, c) < |s|
    ensures JoinWith(SplitOn(s, c)[1..], c) == s[IndexOf(s, c) + 1..]
  {
    var k := IndexOf(s, c);
    var after := s[k + 1..];
    SplitOnFound(s, c, k);
    JoinSplit(after, c);
  }

  lemma SplitTailMissing(s: string, c: char)
    requires IndexOf(s, c) == |s|
    ensures JoinWith(SplitOn(s, c)[1..], c) == ""
  {
    assert SplitOn(s, c) == [s];
    assert SplitOn(s, c)[1..] == [];
  }

  lemma SplitOnFound(s: string, c: char, k: nat)
    requires k == IndexOf(s, c) < |s|
    ensures SplitOn(s, c)[1..] == SplitOn(s[k + 1..], c)
  {
    var rest := SplitOn(s[k + 1..], c);
    assert SplitOn(s, c) == [s[..k]] + rest;
    ConsTail(s[..k], rest);
  }

  lemma ConsTail(x: string, rest: seq<string>)
    ensures ([x] + rest)[1..] == rest
  {
  }

  /** The number of occurrences of `c` in `s`. */
  function Count(s: string, c: char): nat
  {
    if s == [] then 0 else (if s[0] == c then 1 else 0) + Count(s[1..], c)
  }

  lemma {:induction false} CountConcat(a: string, b: string, c: char)
    ensures Count(a + b, c) == Count(a, c) + Count(b, c)
    decreases |a|
  {
    if a == [] {
      assert a + b == b;
    } else {
      assert (a + b)[0] == a[0] && (a + b)[1..] == a[1..] + b;
      CountConcat(a[1..], b, c);
    }
  }

  lemma {:induction false} CountAbsent(s: string, c: char)
    ensures c !in s <==> Count(s, c) == 0
    decreases |s|
  {
    if s != [] {
      CountAbsent(s[1..], c);
      assert s == [s[0]] + s[1..];
    }
  }
}

=== FILE: wrappers.dfy ===
/** Failure-carrying values used across the model. */
module Wrappers {

  datatype Option<+T> = None | Some(value: T)

  datatype Result<+R, +E> = Ok(value: R) | Err(error: E)
}
